=== FILE: README.md ===
# django-salesforce: the REST cursor, modelled in Dafny

django-salesforce lets Django models live in Salesforce. Its database
backend has no wire protocol. `CursorWrapper` in
`salesforce/backend/query.py` plays the part of a DB-API cursor:

- `execute` renders the SQL text with its arguments quoted as SOQL literals;
- it routes the text by its first keyword to one REST call: a SELECT becomes a
  GET on the query endpoint, an INSERT a POST to the object collection, a
  DELETE a DELETE on one record;
- it turns the remote failure codes into Django exceptions;
- `fetchone` and `fetchmany` then read the decoded `records` array.
  `SalesforceQuerySet.iterator` reshapes each record (`_mkmodels`) into the
  dictionary Django's python deserializer expects.

The model has these modules, one per file:

- `Literals` (literals.dfy): `quoted_string_literal`, the `conversions` table
  entry by entry, `process_args`, and the `%s`/`%%` substitution that
  produces `debug_sql`. It also covers Python 2's `str()` of ints and of
  finite Decimals.
- `UrlEncoding` (urlencoding.dfy): `urllib.urlencode(dict(q=...))`, that is
  `quote_plus` over byte strings, with its inverse.
- `Requests` (requests.dfy): routing and request building in `execute`.
  `Plan` is everything `execute` does before the transport is called.
- `Failures` (failures.dfy): the transport's outcomes (the four restkit exceptions it catches, success, and any other exception) and the effect of
  each on the cursor. This includes the `errorCode` mapping.
- `Cursors` (cursor.dfy): the class `Cursor`. It holds the decoded records,
  a read position, and the exception the lazy `_iterate` generator raises on
  its first read. It has `Execute`, `FetchOne`, `FetchMany` (as written),
  `FetchManyIntended` and `FetchAll`. The batch specification function
  `Take` describes what one `fetchmany` call reads.
- `Shaping` (shaping.dfy): `_mkmodels`.
- `Wrappers`, `Exceptions` and `Json` hold the shared datatypes: Option and
  Result, the Python exceptions that escape, and decoded JSON.

Inputs the code gets from outside become parameters:

- the credential that `auth.authenticate` returns (token and instance URL);
- the parts of the Django query object `execute` reads: table name, columns,
  params, and the primary key of a DELETE;
- the transport's reply to the one request, as a `Reply` value. `Execute`
  returns the `Request` it would hand to the transport.

Where the code and its documentation disagree, the model follows the code:

- The text sent as `q=` is the rendered `debug_sql`, with the arguments
  substituted in, not the parameterised query.
- A DELETE whose where clause has no child raises IndexError while the
  request is being built. The code never reports it as an unsupported
  operation.
- A successful INSERT or DELETE does not yield an empty result. Its reply
  has no `records` key (or is not JSON), so the generator raises KeyError
  (or ValueError) on the first read. `Installed` records this.
- `fetchall` always raises NameError, because `size` is undefined there.
- A 404 or 410 reply does not give an empty result. `execute` logs it and
  returns without touching `self.results`
  (salesforce/backend/query.py:149-154), so the next
  fetch still reads the previous query's rows. `Classify` and `Execute`
  record this as `KeepResults`.

## Model

Several rows below are lemmas about definitions that have no row of their
own. These definitions are:

- `Requests.DebugSql`: `q % process_args(args)`; with `args` left at None it
  raises TypeError.
- `Requests.KindOf`: routing by first keyword.
- `Requests.Upper`: `str.upper`.
- `Failures.RemoteError`: the `errorCode` mapping.
- `Cursors.Installed`: what a delivered reply puts in the cursor.
- `Shaping.Text`: `'%s' % value`.
- `Literals.Escape`: `_escape` with the conversions table.
- `Literals.DecimalText`: Python 2's str() of a Decimal.
- `Literals.ReadDecimal`: how the Decimal constructor reads decimal text.

| member | source | states |
|---|---|---|
| Literals.DoubleQuotesLength | salesforce/backend/query.py:42 | doubling the quotes lengthens the text by exactly the number of quotes in it |
| Literals.QuotedStringLiteral | salesforce/backend/query.py:37-44 | the literal is two characters plus the text plus one per embedded quote long, and begins and ends with a single quote |
| Literals.ReadBodyOfDoubled | salesforce/backend/query.py:42 | reading a doubled body up to its closing quote yields the original text and the untouched remainder |
| Literals.QuotedLiteralReadsBack | salesforce/backend/query.py:37-42 | a quoted literal is self-delimiting: read from the front of any text not starting with a quote, it yields the original string and leaves what follows untouched, so no value can close the literal early |
| Literals.QuotedLiteralRoundTrip | salesforce/backend/query.py:37-42 | stripping the outer quotes and un-doubling the inner ones recovers the original string |
| Literals.QuoteExample | salesforce/backend/query.py:42 | `O'Brien` is quoted as `'O''Brien'` |
| Literals.NatDigits | salesforce/backend/query.py:224-225 | the decimal text of a natural number is non-empty, all digits, and has no leading zero |
| Literals.NatDigitsRoundTrip | salesforce/backend/query.py:224-225 | parsing the digits of n gives back n |
| Literals.IntTextRoundTrip | salesforce/backend/query.py:224-225 | str() of an int or long is a well-formed signed numeral that parses back to the same integer |
| Literals.StringLiteral | salesforce/backend/query.py:37-44 | quoting succeeds exactly for values that have a string-like `replace` (str, unicode, str subclasses); a `replace` of another signature gives NotImplementedError, and values without one give AttributeError |
| Literals.EscapeFallback | salesforce/backend/query.py:50-51 | a value whose exact type is not a key of the conversions table is encoded by the str entry, and the str entry is the quoting function |
| Literals.EscapeTable | salesforce/backend/query.py:223-236 | int and long encode as their decimal text, bool as `1`/`0`, None as `NULL`, str and ASCII unicode as quoted literals, and Decimal as its str(); non-ASCII unicode raises UnicodeEncodeError, date and datetime raise NameError for `date`, timedelta raises TypeError, and a list or tuple gives `()` when empty and NameError for `escape_item` otherwise |
| Literals.ExponentReadsBack | salesforce/backend/query.py:236 | a nonzero exponent is written as `E`, its sign and its digits, and reads back as the same integer |
| Literals.BelowOneRoundTrip | salesforce/backend/query.py:236 | a Decimal below one printed as `0.`, zeros and its digits reads back as the same Decimal |
| Literals.IntegralRoundTrip | salesforce/backend/query.py:236 | a Decimal with exponent 0 printed as its digits reads back as the same Decimal |
| Literals.InsideRoundTrip | salesforce/backend/query.py:236 | a Decimal printed with the point inside its digits reads back as the same Decimal |
| Literals.ScientificDigitRoundTrip | salesforce/backend/query.py:236 | a one-digit Decimal printed in scientific notation reads back as the same Decimal |
| Literals.ScientificPointRoundTrip | salesforce/backend/query.py:236 | a several-digit Decimal printed as `d.ddd` and an exponent reads back as the same Decimal |
| Literals.DecimalTextRoundTrip | salesforce/backend/query.py:236 | str() of every finite Decimal, in whichever of its plain or scientific forms, reads back through the Decimal constructor as the same sign, coefficient and exponent, so the SOQL literal denotes exactly the value passed |
| Literals.DecimalAgreesWithInt | salesforce/backend/query.py:236 | a Decimal with exponent 0 encodes exactly like the int of the same value |
| Literals.NumbersHaveNoQuote | salesforce/backend/query.py:224-232 | the int, long, bool and None encodings succeed and contain no quote character |
| Literals.DigitsHaveNoQuote | salesforce/backend/query.py:224 | a run of digits contains no quote character |
| Literals.IntTextHasNoQuote | salesforce/backend/query.py:224-225 | the text of any integer contains no quote character |
| Literals.ProcessArgs | salesforce/backend/query.py:46-52 | the tuple succeeds iff every argument's conversion succeeds; it then has the arguments' length and order, and element i is the encoding of argument i |
| Literals.ProcessArgsFirstError | salesforce/backend/query.py:52 | when conversions fail, process_args raises the exception of the first failing argument |
| Literals.FormatSucceedsIff | salesforce/backend/query.py:114 | `q % args` succeeds iff every `%` in q starts a `%s` or `%%` directive and there is exactly one argument per `%s` |
| Literals.FormatWithoutDirectives | salesforce/backend/query.py:114 | text without `%` renders unchanged with no arguments |
| Literals.FormatSubstitutes | salesforce/backend/query.py:114 | a `%s` is replaced by its argument verbatim, the text before it is copied, and the remaining arguments go to the rest of the text |
| Literals.FormatOtherDirective | salesforce/backend/query.py:114 | a directive other than `%s` and `%%` fails where it stands: a numeric conversion with TypeError (not enough arguments, or no number among the strings), any other character with ValueError |
| Literals.FormatPercent | salesforce/backend/query.py:114 | `%%` becomes one `%` and consumes no argument |
| UrlEncoding.HexDigitReadsBack | salesforce/backend/query.py:120-122 | each hex digit the encoder writes is safe and decodes to its value |
| UrlEncoding.UnquoteQuoteChar | salesforce/backend/query.py:120-122 | decoding undoes the escape of one byte whatever follows, and the escape is made only of safe characters, `+` and `%` |
| UrlEncoding.QuotePlus | salesforce/backend/query.py:120-122 | the escape succeeds iff every character fits a byte; otherwise it fails with UnicodeEncodeError |
| UrlEncoding.QuotePlusRoundTrip | salesforce/backend/query.py:120-122 | unquote_plus(quote_plus(s)) == s, and the escaped text contains no space, `&`, `=`, `#` or `?` |
| UrlEncoding.EncodeQuery | salesforce/backend/query.py:120-122 | the query string is `q=` followed by an escaped value that decodes back to the rendered query |
| Requests.StartsWithUpper | salesforce/backend/query.py:118 | `q.upper().startswith(K)` holds iff q starts with K when letter case is ignored |
| Requests.KindOfMatchesKeyword | salesforce/backend/query.py:118-133 | the operation chosen is SELECT, INSERT or DELETE exactly when q begins with that keyword in any letter case |
| Requests.KindOfUnrecognised | salesforce/backend/query.py:134-135 | no operation is chosen iff q begins with none of the three keywords |
| Requests.Zip | salesforce/backend/query.py:127 | zip pairs columns and parameters position by position, up to the shorter list |
| Requests.DictOfKeys | salesforce/backend/query.py:127 | dict(pairs) has exactly the keys of the pairs |
| Requests.DictOfLastWins | salesforce/backend/query.py:127 | in dict(pairs), a key maps to the value of its last pair |
| Requests.PostDataKeys | salesforce/backend/query.py:127 | the INSERT body has one key per column that has a parameter, and no other |
| Requests.PostDataValue | salesforce/backend/query.py:127 | a column maps to the parameter at its last position among the zipped pairs |
| Requests.DebugSqlQuotesString | salesforce/backend/query.py:114 | a str argument lands in `debug_sql` as one quoted literal in place of its `%s`, and reading that literal back gives the argument and the text after it |
| Requests.Plan | salesforce/backend/query.py:111-144 | a rendering error propagates; unrouted text raises `DatabaseError("Unsupported query: " + debug_sql)` before any request exists; every request carries `Authorization: OAuth <token>`, has Content-Type iff it is an INSERT, has a URL under instance URL + API stub, has a body iff it is a POST, and only a body json.dumps can encode is sent |
| Requests.QueryUrlSplits | salesforce/backend/query.py:120-122 | the SELECT URL is the query endpoint, `?q=`, and the escaped value |
| Requests.SelectRequest | salesforce/backend/query.py:118-122 | a rendered SELECT is planned iff urlencode can convert it, and otherwise fails with UnicodeEncodeError; when planned it is a GET without a body or Content-Type whose `q` parameter decodes back to the rendered query |
| Requests.InsertRequest | salesforce/backend/query.py:123-144 | an INSERT is a POST to `/sobjects/<table>/` with a JSON Content-Type and the body dict(zip(columns, params)) when json.dumps can encode that body, and raises TypeError before sending otherwise |
| Requests.UnserialisableParameterFails | salesforce/backend/query.py:127-144 | a parameter json.dumps cannot encode (a Decimal, a date) that survives into the INSERT body makes the INSERT raise TypeError |
| Requests.DeleteRequest | salesforce/backend/query.py:129-133 | a DELETE targets `/sobjects/<table>/<pk>` without a body; without a pk it raises IndexError before any request exists |
| Failures.Classify | salesforce/backend/query.py:140-176 | 404 and 410 keep the previous results; only a delivered reply replaces them; 401 raises PermissionDenied with the message; a failed request raises the mapped remote error; any other transport exception passes through uncaught |
| Failures.ErrorCodes | salesforce/backend/query.py:157-166 | INVALID_FIELD, MALFORMED_QUERY and INVALID_FIELD_FOR_INSERT_UPDATE raise FieldError, SyntaxError and IntegrityError with the remote message; every other code raises DatabaseError carrying the whole error object |
| Failures.UnreadableFailures | salesforce/backend/query.py:157-164 | a failure body that is not JSON, an empty error list, a missing errorCode or a missing message fail with ValueError, IndexError or KeyError |
| Failures.MalformedQueryExample | salesforce/backend/query.py:161-162 | a MALFORMED_QUERY rejection raises SyntaxError with its message |
| Cursors.Take | salesforce/backend/query.py:194-203 | a batch consumes no more records than remain, at most one more than it returns, and never more than the budget |
| Cursors.ExtendTruthy | salesforce/backend/query.py:200-203 | reading a truthy record moves it from the rest of the batch to the rows returned |
| Cursors.ExtendEnds | salesforce/backend/query.py:196-202 | a batch ends with the rows so far at exhaustion or at the budget, and consumes a falsy record without returning it |
| Cursors.FirstFalsy | salesforce/backend/query.py:201-202 | the position of the first empty record; all records before it are truthy |
| Cursors.TakeIsPrefix | salesforce/backend/query.py:194-203 | the rows of a batch are a prefix of the remaining records, in order, and all of them are truthy |
| Cursors.TakeCharacterised | salesforce/backend/query.py:188-206 | a batch stops at the first falsy record within reach and consumes it, and otherwise stops at the budget or the end |
| Cursors.DrainsToFirstFalsy | salesforce/backend/query.py:196-202 | fetchmany(0) returns all remaining records up to the first falsy one, and consumes them all when none is falsy |
| Cursors.FetchManyBound | salesforce/backend/query.py:196-199 | fetchmany(n) for n >= 1 consumes at most n - 1 records |
| Cursors.FetchManyDropsLastRow | salesforce/backend/query.py:196-197 | fetchmany(1) returns nothing and consumes nothing even when a row is waiting, where a budget of one row would return it |
| Cursors.IntendedBatchIsFull | salesforce/backend/query.py:188-206 | with the DB-API budget, n waiting truthy records give exactly n rows |
| Cursors.Cursor.constructor | salesforce/backend/query.py:96-103 | a new cursor keeps its credential and query and has no results |
| Cursors.Cursor.Execute | salesforce/backend/query.py:105-176 | a planning error raises before any request and leaves the cursor unchanged; otherwise the planned request is sent; 404/410 return normally and leave the results untouched; raised remote errors leave them untouched; a delivered reply installs its records (or the exception their first read raises) from position 0 |
| Cursors.Cursor.FetchOne | salesforce/backend/query.py:178-186 | returns the records in order, then None for ever; a pending decode error is raised by the first read only |
| Cursors.Cursor.FetchMany | salesforce/backend/query.py:188-206 | returns and consumes exactly the batch `Take(remaining, Limit(size))`, for size 1 nothing at all, and raises a pending decode error |
| Cursors.Cursor.FetchManyIntended | salesforce/backend/query.py:188-206 | the same loop with the early return after `size` reads: returns and consumes exactly `Take(remaining, IntendedLimit(size))` |
| Cursors.Cursor.FetchAll | salesforce/backend/query.py:208-218 | always raises NameError for the undefined `size` |
| Shaping.ShapeRecord | salesforce/backend/query.py:71-75 | a record is shaped iff it has an `attributes` mapping with a `type` and an `Id`; the model is `salesforce.` + type, pk is the Id, and fields are exactly the other keys with their values; a failing record raises, in this order, KeyError for `attributes`, TypeError for an `attributes` that is not a mapping, KeyError for `type`, then KeyError for `Id` |
| Shaping.ShapeAll | salesforce/backend/query.py:69-76 | the generator yields at most one record per record; all of them when nothing raises, fewer when one does |
| Shaping.ShapeAllInOrder | salesforce/backend/query.py:69-76 | each record yielded is its own record shaped, in order, and the generator stops at the first record that raises, with that record's error |
| Shaping.ShapeAllComplete | salesforce/backend/query.py:70-76 | when every record carries its type and Id, every record is shaped |

## Left out

- The HTTP transport (`restkit.Resource` and its get/post/delete/request calls) is not modelled. Its answer is the `Reply` parameter of `Execute`, and the request it would receive is returned.
- `auth.authenticate` and the `connection_created` signal are not modelled: the credential is a constructor parameter.
- JSON decoding and encoding are not modelled: replies arrive decoded as `Body`, and the INSERT body is the mapping `json.dumps` would serialise. The same goes for `force_unicode` and the charset re-encoding of the reply body.
- Logging (`log.debug`, `log.error`) is left out. It has no effect on results.
- The float entry of the conversions table (`'%.15g'`) is left out, because it is floating-point formatting.
- Decimal NaN and Infinity are left out: only finite Decimals are modelled.
- The date, datetime, timedelta, list and tuple entries are modelled only by the exception they raise (NameError, TypeError), or by `()` for an empty list or tuple. Their intended formats never run.
- Python `%` formatting of `q` against the tuple of encoded strings is modelled for `%s`, `%%`, the numeric conversions and unknown characters. A bare numeric conversion (`%d`, `%i`, `%x`, `%f`, `%g` and the like) raises TypeError, as Python does for a string argument. Python's message names the conversion (`%d format: a number is required, not str`, `float argument required, not str`); the model keeps only "a number is required". An unknown character such as `%z` raises ValueError, as in Python. The model is wrong in three cases:
  - Python formats `%r` (the repr of the encoded string) and `%c` with a one-character argument; the model raises ValueError.
  - Python formats `%s` with flags, a width or a precision, such as `%5s` or `%-.3s`; the model raises ValueError.
  - Python raises TypeError ("format requires a mapping") for a mapping key such as `%(name)s`, and for a numeric conversion with flags or a width such as `%5d`; the model raises ValueError.
- Python 2's distinction between byte strings and unicode objects is reduced to character sequences: a unicode argument is quoted when it is ASCII and raises UnicodeEncodeError otherwise. The `%r` rendering in the NotImplementedError message is not modelled.
- The query text `q` and `debug_sql` are treated as byte strings. For a unicode `q` the model misses three behaviours: `q % args` raises UnicodeDecodeError when an argument is a byte string with a non-ASCII byte; the `str()` inside urlencode fails from character 128 rather than 256; and `unicode.upper()` maps some non-ASCII letters (dotless `ı`, long `ſ`) to `I` and `S`, so such text can be routed as SELECT, INSERT or DELETE, where the model's ASCII-only upper-casing does not route it.
- json.dumps of a byte-string parameter that is not valid UTF-8 raises UnicodeDecodeError; the model treats every str parameter as encodable.
- Whether json.dumps accepts a value of a type outside the conversions table (a dict, or a subclass of int, long, float, list or tuple) is the flag `jsonEncodable` of `Foreign`. The contents of such a dict or list are not modelled.
- Decoded JSON has no floating-point numbers: records with currency or percent fields cannot be represented. Numbers are integers only.
- Cursors.Cursor.FetchAll: it models only the NameError the code raises. The "drain the remaining rows" behaviour of a DB-API fetchall is not modelled, because the code never reaches it, so the member carries no proof about draining.
- The message of the DatabaseError raised for an unknown error code, `str(data)`, is not rendered: the error keeps the error object itself, because Python's dict rendering depends on hash order.
- Shaping.ShapeRecord: a composite `type` value is rendered by a caller-supplied function, standing in for Python's `str()` of a dict or list.
- Shaping.ShapeRecord: `record.pop` mutates the caller's record in place. The model builds a new mapping, so the aliasing is not captured. Records that are not JSON objects are not modelled.
- The Django wiring of `SalesforceQuerySet.iterator` is left out: the compiler, `python.Deserializer` and the single `fetchmany(GET_ITERATOR_CHUNK_SIZE)` call. That call, combined with the fetchmany bound, means the iterator yields at most 99 objects; the composition itself is not modelled.
- `SalesforceQuery` and its aggregates module are left out: they are framework configuration.

## Findings

| source | as written | input that shows it | evidently intended | confidence | as-written member | corrected member |
|---|---|---|---|---|---|---|
| salesforce/backend/query.py:196-197 | `fetchmany(size)` returns as soon as `counter == size-1`, and that test runs before each read | `fetchmany(1)` on a cursor with one truthy record waiting returns `[]` and reads nothing; `fetchmany(n)` returns at most n - 1 rows | return after `size` reads, so up to `size` rows, as a DB-API cursor does | high (not executed) | Cursors.FetchManyDropsLastRow | Cursors.Cursor.FetchManyIntended |

=== FILE: cursor.dfy ===
/**
 * CursorWrapper: a database cursor over one REST call. `self.results` is
 * modelled as the decoded records, a read position, and the exception the
 * lazy generator raises on its first read when the body holds no records.
 */
module Cursors {
  import opened Wrappers
  import opened Exceptions
  import opened Json
  import opened Literals
  import opened Requests
  import opened Failures

  // ---------------------------------------------------------------------
  // The batch specification
  // ---------------------------------------------------------------------

  /** Rows returned by one batch, and how many records it consumed. */
  datatype Batch = Batch(rows: seq<Record>, used: nat)

  /** How many reads fetchmany(size) may make: the `counter == size-1` test precedes each read. */
  function Limit(size: int): Option<nat> {
    if size >= 1 then Some(size - 1) else None
  }

  /** The read budget a DB-API fetchmany(size) has: up to `size` rows, all of them for size 0. */
  function IntendedLimit(size: int): Option<nat> {
    if size >= 1 then Some(size) else None
  }

  function Reduce(budget: Option<nat>, k: nat): Option<nat>
    requires budget.Some? ==> k <= budget.value
  {
    match budget
    case None => None
    case Some(n) => Some(n - k)
  }

  /**
   * One batch read from `rest`: records are taken in order until the
   * budget is spent or the records run out; a falsy record ends the batch
   * and is consumed without being returned.
   */
  function Take(rest: seq<Record>, budget: Option<nat>): (b: Batch)
    ensures b.used <= |rest|
    ensures |b.rows| <= b.used <= |b.rows| + 1
    ensures budget.Some? ==> b.used <= budget.value
    decreases |rest|
  {
    if budget == Some(0) || rest == [] then Batch([], 0)
    else if !Truthy(rest[0]) then Batch([], 1)
    else
      var b := Take(rest[1..], Reduce(budget, 1));
      Batch([rest[0]] + b.rows, b.used + 1)
  }

  /** The rows already returned, followed by the rest of a batch. */
  function Extend(done: seq<Record>, b: Batch): Batch {
    Batch(done + b.rows, |done| + b.used)
  }

  /** Reading a truthy record moves it from the rest of the batch to the rows returned. */
  lemma ExtendTruthy(done: seq<Record>, rest: seq<Record>, budget: Option<nat>)
    requires rest != [] && Truthy(rest[0]) && (budget.Some? ==> |done| < budget.value)
    ensures Extend(done, Take(rest, Reduce(budget, |done|)))
         == Extend(done + [rest[0]], Take(rest[1..], Reduce(budget, |done| + 1)))
  {
    var b := Reduce(budget, |done|);
    assert b != Some(0) && Reduce(b, 1) == Reduce(budget, |done| + 1);
    var t := Take(rest[1..], Reduce(budget, |done| + 1));
    assert done + ([rest[0]] + t.rows) == done + [rest[0]] + t.rows;
  }

  /**
   * A batch ends with the rows returned so far when the records are
   * exhausted or the budget is spent, or after consuming a falsy record.
   */
  lemma ExtendEnds(done: seq<Record>, rest: seq<Record>, budget: Option<nat>)
    requires budget.Some? ==> |done| <= budget.value
    requires rest == [] || Reduce(budget, |done|) == Some(0) || !Truthy(rest[0])
    ensures Extend(done, Take(rest, Reduce(budget, |done|)))
         == Batch(done, |done| + (if rest == [] || Reduce(budget, |done|) == Some(0) then 0 else 1))
  {
    assert done + [] == done;
  }

  /** Index of the first falsy record, or the length when every record is truthy. */
  function FirstFalsy(rest: seq<Record>): (n: nat)
    ensures n <= |rest|
    ensures forall i | 0 <= i < n :: Truthy(rest[i])
    ensures n < |rest| ==> !Truthy(rest[n])
  {
    if rest == [] || !Truthy(rest[0]) then 0 else 1 + FirstFalsy(rest[1..])
  }

  /**
   * A batch, characterised without the loop: it stops at the first falsy
   * record when that lies within reach (and consumes it), else at the
   * budget or the end of the records.
   */
  lemma {:induction false} TakeCharacterised(rest: seq<Record>, budget: Option<nat>)
    ensures var reach := if budget.None? || budget.value > |rest| then |rest| else budget.value;
      var n := FirstFalsy(rest);
      Take(rest, budget) == if n < reach then Batch(rest[..n], n + 1) else Batch(rest[..reach], reach)
    decreases |rest|
  {
    if budget == Some(0) || rest == [] {
    } else if !Truthy(rest[0]) {
    } else {
      var tail := rest[1..];
      var budget' := Reduce(budget, 1);
      var b := Take(tail, budget');
      TakeCharacterised(tail, budget');
      var reach := if budget.None? || budget.value > |rest| then |rest| else budget.value;
      var reach' := if budget'.None? || budget'.value > |tail| then |tail| else budget'.value;
      assert reach' == reach - 1;
      var n := FirstFalsy(rest);
      assert n == 1 + FirstFalsy(tail);
      var m := if n < reach then n else reach;
      assert b.rows == tail[..m - 1];
      ConsPrefix(rest, m);
      assert Take(rest, budget) == Batch(rest[..m], b.used + 1);
    }
  }

  /** Putting the first record back in front of a prefix of the rest. */
  lemma ConsPrefix(s: seq<Record>, m: nat)
    requires 1 <= m <= |s|
    ensures [s[0]] + s[1..][..m - 1] == s[..m]
  {
  }

  /** A batch is a prefix of the records it reads, and holds truthy records only. */
  lemma TakeIsPrefix(rest: seq<Record>, budget: Option<nat>)
    ensures var b := Take(rest, budget);
      b.rows == rest[..|b.rows|] && forall i | 0 <= i < |b.rows| :: Truthy(b.rows[i])
  {
    TakeCharacterised(rest, budget);
  }

  /** fetchmany(0), and any size below 1, drains up to the first falsy record. */
  lemma DrainsToFirstFalsy(rest: seq<Record>, size: int)
    requires size <= 0
    ensures Take(rest, Limit(size)).rows == rest[..FirstFalsy(rest)]
    ensures FirstFalsy(rest) == |rest| ==> Take(rest, Limit(size)).used == |rest|
  {
    TakeCharacterised(rest, Limit(size));
  }

  /** fetchmany(n) for n >= 1 consumes at most n - 1 records, so it returns at most n - 1 rows. */
  lemma FetchManyBound(rest: seq<Record>, size: int)
    requires size >= 1
    ensures Take(rest, Limit(size)).used <= size - 1
    ensures |Take(rest, Limit(size)).rows| <= size - 1
  {
  }

  /** The off-by-one: fetchmany(1) returns nothing even when a row is waiting. */
  lemma {:induction false} FetchManyDropsLastRow(r: Record, rest: seq<Record>)
    requires Truthy(r)
    ensures Take([r] + rest, Limit(1)) == Batch([], 0)
    ensures Take([r] + rest, IntendedLimit(1)).rows == [r]
  {
    var s := [r] + rest;
    assert s[0] == r;
    assert Take(s[1..], Some(0)) == Batch([], 0);
  }

  /** With the intended budget, a run of truthy records yields exactly `size` rows. */
  lemma IntendedBatchIsFull(rest: seq<Record>, size: int)
    requires 1 <= size <= |rest|
    requires forall i | 0 <= i < size :: Truthy(rest[i])
    ensures Take(rest, IntendedLimit(size)) == Batch(rest[..size], size)
  {
    TakeCharacterised(rest, IntendedLimit(size));
  }

  /** The records and deferred exception a successful reply installs. */
  function Installed(body: Body): (seq<Record>, Option<Error>) {
    match body
    case Records(rs) => (rs, None)
    case WithoutRecords => ([], Some(KeyError("records")))
    case NotJson => ([], Some(ValueError(NoJsonObject)))
  }

  // ---------------------------------------------------------------------
  // The cursor
  // ---------------------------------------------------------------------

  class Cursor {
    const credential: Credential
    const query: QueryContext
    var records: seq<Record>
    var pos: nat
    var pending: Option<Error>

    ghost predicate Valid()
      reads this
    {
      pos <= |records| && (pending.Some? ==> records == [])
    }

    /** The records `fetchone` has yet to return. */
    function Remaining(): seq<Record>
      reads this
      requires Valid()
    {
      records[pos..]
    }

    /** `__init__`: the credential comes from the authenticator; `self.results = iter([])`. */
    constructor (credential: Credential, query: QueryContext)
      ensures Valid()
      ensures this.credential == credential && this.query == query
      ensures records == [] && pos == 0 && pending.None?
    {
      this.credential := credential;
      this.query := query;
      records := [];
      pos := 0;
      pending := None;
    }

    /**
     * `execute(q, args)`: builds the request, sends it (the reply is the
     * transport's answer), and updates the results. `sent` is the request
     * handed to the transport, None when none was.
     */
    method Execute(q: string, args: Option<seq<Value>>, reply: Reply) returns (outcome: Outcome<Error>, sent: Option<Request>)
      requires Valid()
      modifies this
      ensures Valid()
      ensures var plan := Plan(credential, query, q, args);
        plan.Err? ==> outcome == Fail(plan.error) && sent.None? && unchanged(this)
      ensures var plan := Plan(credential, query, q, args);
        plan.Ok? ==> sent == Some(plan.value)
      ensures Plan(credential, query, q, args).Ok? && Classify(reply).KeepResults? ==>
        outcome == Pass && unchanged(this)
      ensures Plan(credential, query, q, args).Ok? && Classify(reply).Raise? ==>
        outcome == Fail(Classify(reply).error) && unchanged(this)
      ensures Plan(credential, query, q, args).Ok? && Classify(reply).ReplaceResults? ==>
        outcome == Pass && (records, pending) == Installed(Classify(reply).body) && pos == 0
    {
      var plan := Plan(credential, query, q, args);
      if plan.Err? {
        return Fail(plan.error), None;
      }
      sent := Some(plan.value);
      match Classify(reply) {
        case KeepResults =>
          outcome := Pass;
        case Raise(e) =>
          outcome := Fail(e);
        case ReplaceResults(body) =>
          records, pending := Installed(body).0, Installed(body).1;
          pos := 0;
          outcome := Pass;
      }
    }

    /**
     * `fetchone`: the next record, or None once the records are exhausted,
     * for ever after; a deferred exception is raised by the first read only.
     */
    method FetchOne() returns (r: Result<Option<Record>, Error>)
      requires Valid()
      modifies this`pos, this`pending
      ensures Valid() && records == old(records)
      ensures old(pending).Some? ==> r == Err(old(pending).value) && pending.None? && pos == old(pos)
      ensures old(pending).None? && old(pos) < |records| ==>
        r == Ok(Some(records[old(pos)])) && pos == old(pos) + 1 && pending.None?
      ensures old(pending).None? && old(pos) == |records| ==>
        r == Ok(None) && pos == old(pos) && pending.None?
    {
      if pending.Some? {
        r := Err(pending.value);
        pending := None;
      } else if pos < |records| {
        r := Ok(Some(records[pos]));
        pos := pos + 1;
      } else {
        r := Ok(None);
      }
    }

    /** `fetchmany(size)`, as written. */
    method FetchMany(size: int) returns (r: Result<seq<Record>, Error>)
      requires Valid()
      modifies this`pos, this`pending
      ensures Valid() && records == old(records)
      ensures Limit(size) == Some(0) ==> r == Ok([]) && pos == old(pos) && pending == old(pending)
      ensures Limit(size) != Some(0) && old(pending).Some? ==>
        r == Err(old(pending).value) && pos == old(pos) && pending.None?
      ensures Limit(size) != Some(0) && old(pending).None? ==>
        var b := Take(old(Remaining()), Limit(size));
        r == Ok(b.rows) && pos == old(pos) + b.used && pending.None?
    {
      ghost var spec := Take(Remaining(), Limit(size));
      var result: seq<Record> := [];
      var counter := 0;
      while true
        invariant Valid() && records == old(records) && pending == old(pending)
        invariant pos == old(pos) + |result|
        invariant counter == if size != 0 then |result| else 0
        invariant size >= 1 ==> |result| <= size - 1
        invariant pending.Some? ==> result == []
        invariant pending.None? ==> spec == Extend(result, Take(Remaining(), Reduce(Limit(size), |result|)))
        decreases |records| - pos
      {
        if counter == size - 1 {
          ExtendEnds(result, Remaining(), Limit(size));
          return Ok(result);
        }
        if size != 0 {
          counter := counter + 1;
        }
        ghost var rest := Remaining();
        var row := FetchOne();
        match row {
          case Err(e) =>
            return Err(e);
          case Ok(None) =>
            ExtendEnds(result, rest, Limit(size));
            return Ok(result);
          case Ok(Some(record)) =>
            assert rest[0] == record && rest[1..] == Remaining();
            if !Truthy(record) {
              ExtendEnds(result, rest, Limit(size));
              return Ok(result);
            }
            ExtendTruthy(result, rest, Limit(size));
            result := result + [record];
        }
      }
    }

    /** fetchmany with the budget a DB-API cursor promises: up to `size` rows. */
    method FetchManyIntended(size: int) returns (r: Result<seq<Record>, Error>)
      requires Valid()
      modifies this`pos, this`pending
      ensures Valid() && records == old(records)
      ensures old(pending).Some? ==> r == Err(old(pending).value) && pos == old(pos) && pending.None?
      ensures old(pending).None? ==>
        var b := Take(old(Remaining()), IntendedLimit(size));
        r == Ok(b.rows) && pos == old(pos) + b.used && pending.None?
    {
      ghost var spec := Take(Remaining(), IntendedLimit(size));
      var result: seq<Record> := [];
      var counter := 0;
      while true
        invariant Valid() && records == old(records) && pending == old(pending)
        invariant pos == old(pos) + |result|
        invariant counter == if size != 0 then |result| else 0
        invariant size >= 1 ==> |result| <= size
        invariant pending.Some? ==> result == []
        invariant pending.None? ==> spec == Extend(result, Take(Remaining(), Reduce(IntendedLimit(size), |result|)))
        decreases |records| - pos
      {
        if size > 0 && counter == size {
          ExtendEnds(result, Remaining(), IntendedLimit(size));
          return Ok(result);
        }
        if size != 0 {
          counter := counter + 1;
        }
        ghost var rest := Remaining();
        var row := FetchOne();
        match row {
          case Err(e) =>
            return Err(e);
          case Ok(None) =>
            ExtendEnds(result, rest, IntendedLimit(size));
            return Ok(result);
          case Ok(Some(record)) =>
            assert rest[0] == record && rest[1..] == Remaining();
            if !Truthy(record) {
              ExtendEnds(result, rest, IntendedLimit(size));
              return Ok(result);
            }
            ExtendTruthy(result, rest, IntendedLimit(size));
            result := result + [record];
        }
      }
    }

    /** `fetchall` loops over `range(size)` with `size` undefined: it always raises NameError. */
    method FetchAll() returns (r: Result<seq<Record>, Error>)
      ensures r == Err(NameError("size"))
    {
      r := Err(NameError("size"));
    }
  }
}

=== FILE: exceptions.dfy ===
/**
 * The exceptions that escape the cursor, named after the Python classes
 * that salesforce/backend/query.py raises or lets through.
 */
module Exceptions {

  datatype Error =
    // built-in Python exceptions raised by the code itself
    | TypeError(message: string)
    | ValueError(message: string)
    | AttributeError(name: string)
    | NameError(name: string)
    | KeyError(key: string)
    | IndexError
    | UnicodeEncodeError
    | TransportError(name: string)   // any other exception the HTTP library raises, passed through
    | NotImplementedError(typeName: string)
    // the database-facing exceptions the cursor raises on purpose
    | DatabaseError(message: string)
    | RemoteDatabaseError(data: map<string, string>)   // DatabaseError(str(data)), str left out
    | PermissionDenied(message: string)
    | FieldError(message: string)
    | SyntaxError(message: string)
    | IntegrityError(message: string)
}

=== FILE: failures.dfy ===
/**
 * The second half of `CursorWrapper.execute`: how the outcome of the one
 * restkit call is turned into the cursor's behaviour.
 */
module Failures {
  import opened Wrappers
  import opened Exceptions
  import opened Json

  /** The body of a successful reply, as the lazy `_iterate` generator will decode it. */
  datatype Body =
    | Records(records: seq<Record>)   // a JSON object holding a `records` array
    | WithoutRecords                  // JSON without a `records` key, as INSERT replies are
    | NotJson                         // text json.loads rejects, such as an empty DELETE reply

  /** How the single restkit call ended. */
  datatype Reply =
    | ResourceNotFound(message: string)                          // 404
    | ResourceGone(message: string)                              // 410
    | Unauthorized(message: string)                              // 401
    | RequestFailed(errors: Option<seq<map<string, string>>>)    // any other rejection; None: body is not JSON
    | Delivered(body: Body)                                      // success
    | Unhandled(name: string)                                    // any other exception, not caught

  /** What the reply does to the cursor. */
  datatype Effect =
    | KeepResults                 // logged and swallowed; the previous results stay
    | ReplaceResults(body: Body)  // `self.results = _iterate(response)`
    | Raise(error: Error)

  const NoJsonObject := "No JSON object could be decoded"

  /** The exception raised for a RequestFailed: only the first error object is consulted. */
  function RemoteError(errors: Option<seq<map<string, string>>>): Error {
    match errors
    case None => ValueError(NoJsonObject)
    case Some(list) =>
      if list == [] then IndexError
      else
        var data := list[0];
        if "errorCode" !in data then KeyError("errorCode")
        else
          var code := data["errorCode"];
          if code == "INVALID_FIELD" then
            (if "message" in data then FieldError(data["message"]) else KeyError("message"))
          else if code == "MALFORMED_QUERY" then
            (if "message" in data then SyntaxError(data["message"]) else KeyError("message"))
          else if code == "INVALID_FIELD_FOR_INSERT_UPDATE" then
            (if "message" in data then IntegrityError(data["message"]) else KeyError("message"))
          else RemoteDatabaseError(data)
  }

  function Classify(reply: Reply): (e: Effect)
    ensures e.KeepResults? <==> reply.ResourceNotFound? || reply.ResourceGone?
    ensures e.ReplaceResults? <==> reply.Delivered?
    ensures reply.Delivered? ==> e == ReplaceResults(reply.body)
    ensures reply.Unauthorized? ==> e == Raise(PermissionDenied(reply.message))
    ensures reply.RequestFailed? ==> e == Raise(RemoteError(reply.errors))
    ensures reply.Unhandled? ==> e == Raise(TransportError(reply.name))
  {
    match reply
    case ResourceNotFound(_) => KeepResults
    case ResourceGone(_) => KeepResults
    case Unauthorized(message) => Raise(PermissionDenied(message))
    case RequestFailed(errors) => Raise(RemoteError(errors))
    case Delivered(body) => ReplaceResults(body)
    case Unhandled(name) => Raise(TransportError(name))
  }

  /**
   * The three recognised error codes keep the remote message verbatim;
   * any other code wraps the whole error object.
   */
  lemma ErrorCodes(data: map<string, string>, more: seq<map<string, string>>)
    requires "errorCode" in data && "message" in data
    ensures var e := RemoteError(Some([data] + more));
      var code := data["errorCode"];
      var message := data["message"];
      && (code == "INVALID_FIELD" <==> e == FieldError(message))
      && (code == "MALFORMED_QUERY" <==> e == SyntaxError(message))
      && (code == "INVALID_FIELD_FOR_INSERT_UPDATE" <==> e == IntegrityError(message))
      && (code !in {"INVALID_FIELD", "MALFORMED_QUERY", "INVALID_FIELD_FOR_INSERT_UPDATE"} <==>
          e == RemoteDatabaseError(data))
  {
  }

  /**
   * A rejection whose body is not the expected error list fails inside
   * the handler itself, with the exception of the step that broke.
   */
  lemma UnreadableFailures(data: map<string, string>, more: seq<map<string, string>>)
    ensures Classify(RequestFailed(None)) == Raise(ValueError(NoJsonObject))
    ensures Classify(RequestFailed(Some([]))) == Raise(IndexError)
    ensures "errorCode" !in data ==> Classify(RequestFailed(Some([data] + more))) == Raise(KeyError("errorCode"))
    ensures ("errorCode" in data && "message" !in data &&
             data["errorCode"] in {"INVALID_FIELD", "MALFORMED_QUERY", "INVALID_FIELD_FOR_INSERT_UPDATE"}) ==>
      Classify(RequestFailed(Some([data] + more))) == Raise(KeyError("message"))
  {
  }

  lemma MalformedQueryExample()
    ensures Classify(RequestFailed(Some([map["errorCode" := "MALFORMED_QUERY", "message" := "bad field"]])))
      == Raise(SyntaxError("bad field"))
  {
  }
}

=== FILE: json.dfy ===
/** Decoded JSON values, as json.loads hands them to the cursor. */
module Json {

  datatype Json =
    | JNull
    | JBool(b: bool)
    | JNum(n: int)
    | JStr(s: string)
    | JArray(items: seq<Json>)
    | JObject(fields: map<string, Json>)

  /** One element of the `records` array of a query response. */
  type Record = map<string, Json>

  /** Python truthiness of a record: an empty mapping is false. */
  predicate Truthy(r: Record) {
    r != map[]
  }
}

=== FILE: literals.dfy ===
/**
 * The literal encoder: quoted_string_literal, the `conversions` table,
 * process_args, and the `%s` substitution that renders `debug_sql`.
 */
module Literals {
  import opened Wrappers
  import opened Exceptions

  // ---------------------------------------------------------------------
  // SQL string quoting
  // ---------------------------------------------------------------------

  /** Number of occurrences of `c` in `s`. */
  function Count(s: string, c: char): nat {
    if s == [] then 0 else (if s[0] == c then 1 else 0) + Count(s[1..], c)
  }

  /** How one character of the text is written inside a literal: a quote is doubled. */
  function QuotedChar(c: char): string {
    if c == '\'' then "''" else [c]
  }

  /** `s.replace("'", "''")`: every single quote doubled. */
  function DoubleQuotes(s: string): string {
    if s == [] then [] else QuotedChar(s[0]) + DoubleQuotes(s[1..])
  }

  lemma {:induction false} DoubleQuotesLength(s: string)
    ensures |DoubleQuotes(s)| == |s| + Count(s, '\'')
  {
    if s != [] {
      DoubleQuotesLength(s[1..]);
    }
  }

  /** quoted_string_literal on a string: wrap in quotes, double embedded quotes. */
  function QuotedStringLiteral(s: string): (r: string)
    ensures |r| == |s| + 2 + Count(s, '\'')
    ensures r[0] == '\'' && r[|r| - 1] == '\''
  {
    DoubleQuotesLength(s);
    "'" + DoubleQuotes(s) + "'"
  }

  /**
   * Reader for the body of an SQL string literal (the text after the
   * opening quote): `''` stands for one quote, a lone quote closes the
   * literal. Yields the denoted text and what follows the literal.
   */
  function ReadLiteralBody(t: string): Option<(string, string)>
    decreases |t|
  {
    if t == [] then None
    else if t[0] == '\'' then
      if |t| >= 2 && t[1] == '\'' then PrependText('\'', ReadLiteralBody(t[2..]))
      else Some(([], t[1..]))
    else PrependText(t[0], ReadLiteralBody(t[1..]))
  }

  function PrependText(c: char, r: Option<(string, string)>): Option<(string, string)> {
    match r
    case None => None
    case Some((s, rest)) => Some(([c] + s, rest))
  }

  /** Reads one SQL string literal from the front of `t`. */
  function ReadLiteral(t: string): Option<(string, string)> {
    if t != [] && t[0] == '\'' then ReadLiteralBody(t[1..]) else None
  }

  /** Reading a written character in front of `tail` yields that character before what `tail` yields. */
  lemma ReadQuotedChar(c: char, tail: string)
    ensures ReadLiteralBody(QuotedChar(c) + tail) == PrependText(c, ReadLiteralBody(tail))
  {
    var t := QuotedChar(c) + tail;
    if c == '\'' {
      assert t[0] == '\'' && t[1] == '\'' && t[2..] == tail;
    } else {
      assert t[0] == c && t[1..] == tail;
    }
  }

  lemma {:induction false} ReadBodyOfDoubled(s: string, rest: string)
    requires rest == [] || rest[0] != '\''
    ensures ReadLiteralBody(DoubleQuotes(s) + "'" + rest) == Some((s, rest))
  {
    if s == [] {
      assert DoubleQuotes(s) + "'" + rest == ['\''] + rest;
    } else {
      ReadBodyOfDoubled(s[1..], rest);
      var tail := DoubleQuotes(s[1..]) + "'" + rest;
      assert DoubleQuotes(s) + "'" + rest == QuotedChar(s[0]) + tail;
      ReadQuotedChar(s[0], tail);
      assert [s[0]] + s[1..] == s;
    }
  }

  /**
   * A quoted literal is self-delimiting: reading it back from the front of
   * any text that does not itself start with a quote yields exactly the
   * original string and leaves the following text untouched, so no value
   * can end the literal early.
   */
  lemma QuotedLiteralReadsBack(s: string, rest: string)
    requires rest == [] || rest[0] != '\''
    ensures ReadLiteral(QuotedStringLiteral(s) + rest) == Some((s, rest))
  {
    var t := QuotedStringLiteral(s) + rest;
    assert t[1..] == DoubleQuotes(s) + "'" + rest;
    ReadBodyOfDoubled(s, rest);
  }

  /** Un-doubling the interior recovers the original string. */
  lemma QuotedLiteralRoundTrip(s: string)
    ensures ReadLiteral(QuotedStringLiteral(s)) == Some((s, ""))
  {
    QuotedLiteralReadsBack(s, "");
    assert QuotedStringLiteral(s) + "" == QuotedStringLiteral(s);
  }

  lemma QuoteExample()
    ensures QuotedStringLiteral("O'Brien") == "'O''Brien'"
  {
    assert DoubleQuotes("O'Brien") == "O''Brien";
  }

  // ---------------------------------------------------------------------
  // str() of integers
  // ---------------------------------------------------------------------

  function DigitChar(d: nat): char
    requires d < 10
  {
    "0123456789"[d]
  }

  predicate IsDigit(c: char) {
    '0' <= c <= '9'
  }

  predicate AllDigits(s: string) {
    forall i | 0 <= i < |s| :: IsDigit(s[i])
  }

  /** Canonical base-10 digits of a natural number. */
  function NatDigits(n: nat): (r: string)
    ensures r != [] && AllDigits(r)
    ensures |r| > 1 ==> r[0] != '0'
    decreases n
  {
    if n < 10 then [DigitChar(n)] else NatDigits(n / 10) + [DigitChar(n % 10)]
  }

  /** Python's str() of an int or long: optional minus sign, then digits. */
  function IntText(i: int): string {
    if i < 0 then "-" + NatDigits(-i) else NatDigits(i)
  }

  function DigitValue(c: char): nat
    requires IsDigit(c)
  {
    c as int - '0' as int
  }

  function ParseNat(s: string): nat
    requires AllDigits(s)
  {
    if s == [] then 0 else ParseNat(s[..|s| - 1]) * 10 + DigitValue(s[|s| - 1])
  }

  /** Reads back an optionally signed decimal numeral. */
  function ParseInt(s: string): int
    requires s != [] && (IsDigit(s[0]) || (s[0] == '-' && AllDigits(s[1..])))
    requires IsDigit(s[0]) ==> AllDigits(s)
  {
    if s[0] == '-' then 0 - ParseNat(s[1..]) as int else ParseNat(s)
  }

  lemma {:induction false} NatDigitsRoundTrip(n: nat)
    ensures ParseNat(NatDigits(n)) == n
    decreases n
  {
    if n >= 10 {
      NatDigitsRoundTrip(n / 10);
      var r := NatDigits(n);
      assert r[..|r| - 1] == NatDigits(n / 10);
    }
  }

  /** The text of an integer reads back as that integer. */
  lemma IntTextRoundTrip(i: int)
    ensures var r := IntText(i);
      r != [] && (IsDigit(r[0]) || (r[0] == '-' && AllDigits(r[1..]))) &&
      (IsDigit(r[0]) ==> AllDigits(r)) &&
      ParseInt(r) == i
  {
    if i < 0 {
      var m: nat := -i;
      var d := NatDigits(m);
      NatDigitsRoundTrip(m);
      assert IntText(i) == "-" + d;
      assert (("-" + d)[0] == '-') && ("-" + d)[1..] == d;
      assert ParseInt("-" + d) == 0 - ParseNat(d) as int;
    } else {
      var d := NatDigits(i);
      NatDigitsRoundTrip(i);
      assert IntText(i) == d && IsDigit(d[0]);
      assert ParseInt(d) == ParseNat(d);
    }
  }

  // ---------------------------------------------------------------------
  // str() of a finite decimal.Decimal
  // ---------------------------------------------------------------------

  /** A finite Decimal: (-1)^negative * coefficient * 10^exponent. */
  datatype DecimalNumber = DecimalNumber(negative: bool, coefficient: nat, exponent: int)

  function Zeros(n: nat): string {
    seq(n, _ => '0')
  }

  /**
   * The digits with a decimal point before position `dotplace`: a leading
   * `0.` and zeros when it lies left of them, trailing zeros when it lies
   * right of them.
   */
  function DecimalBody(digits: string, dotplace: int): string {
    if dotplace <= 0 then "0." + Zeros(-dotplace) + digits
    else if dotplace >= |digits| then digits + Zeros(dotplace - |digits|)
    else digits[..dotplace] + "." + digits[dotplace..]
  }

  /** The `E` suffix: absent for 0, otherwise `E` and the signed exponent (`%+d`). */
  function ExponentText(x: int): string {
    if x == 0 then "" else if x > 0 then "E+" + NatDigits(x) else "E-" + NatDigits(-x)
  }

  /** Decimal.__str__: plain notation when the exponent allows it, else scientific. */
  function DecimalText(d: DecimalNumber): string {
    var digits := NatDigits(d.coefficient);
    var leftdigits := d.exponent + |digits|;
    var dotplace := if d.exponent <= 0 && leftdigits > -6 then leftdigits else 1;
    (if d.negative then "-" else "") + DecimalBody(digits, dotplace) + ExponentText(leftdigits - dotplace)
  }

  /** `s` cut at its first `c`: the text before it and, if there is one, the text after it. */
  function SplitAt(s: string, c: char): (string, Option<string>) {
    if s == [] then ([], None)
    else if s[0] == c then ([], Some(s[1..]))
    else
      var rest := SplitAt(s[1..], c);
      ([s[0]] + rest.0, rest.1)
  }

  /** A signed exponent: digits with an optional `+` or `-`. */
  function ReadExponent(s: string): Option<int> {
    if |s| >= 2 && s[0] == '+' && AllDigits(s[1..]) then Some(ParseNat(s[1..]))
    else if |s| >= 2 && s[0] == '-' && AllDigits(s[1..]) then Some(0 - ParseNat(s[1..]) as int)
    else if s != [] && AllDigits(s) then Some(ParseNat(s))
    else None
  }

  /**
   * A mantissa `int[.frac]`: the digits on both sides of the point, read
   * as one coefficient, and the number of digits after the point.
   */
  function ReadMantissa(s: string): Option<(nat, nat)> {
    var parts := SplitAt(s, '.');
    var whole := parts.0;
    var fraction := if parts.1.Some? then parts.1.value else [];
    if |whole| + |fraction| > 0 && AllDigits(whole) && AllDigits(fraction) then
      assert AllDigits(whole + fraction) by {
        assert forall i | 0 <= i < |whole + fraction| :: (whole + fraction)[i] == if i < |whole| then whole[i] else fraction[i - |whole|];
      }
      Some((ParseNat(whole + fraction), |fraction|))
    else None
  }

  /**
   * Reads decimal text `[-]int[.frac][E[+|-]exp]` the way the Decimal
   * constructor does: the coefficient is all the digits, and the exponent
   * is the written exponent less the number of fraction digits. This is
   * the unsigned part, as a coefficient and a power of ten.
   */
  function ReadUnsigned(u: string): Option<(nat, int)> {
    var parts := SplitAt(u, 'E');
    Scale(ReadMantissa(parts.0), ReadPower(parts.1))
  }

  /** The exponent after an `E`, or 0 when there is no `E`. */
  function ReadPower(power: Option<string>): Option<int> {
    if power.None? then Some(0) else ReadExponent(power.value)
  }

  /** The written exponent less the number of fraction digits. */
  function Scale(mantissa: Option<(nat, nat)>, exponent: Option<int>): Option<(nat, int)> {
    if mantissa.None? || exponent.None? then None
    else Some((mantissa.value.0, exponent.value - mantissa.value.1))
  }

  function ReadDecimal(t: string): Option<DecimalNumber> {
    var negative := t != [] && t[0] == '-';
    var v := ReadUnsigned(if negative then t[1..] else t);
    if v.None? then None else Some(DecimalNumber(negative, v.value.0, v.value.1))
  }

  /** Cutting at the first `c` finds it just after a prefix free of `c`. */
  lemma {:induction false} SplitAfter(a: string, b: string, c: char)
    requires forall i | 0 <= i < |a| :: a[i] != c
    ensures SplitAt(a + [c] + b, c) == (a, Some(b))
  {
    if a == [] {
      assert [] + [c] + b == [c] + b;
      assert ([c] + b)[1..] == b;
    } else {
      assert (a + [c] + b)[1..] == a[1..] + [c] + b;
      SplitAfter(a[1..], b, c);
      assert [a[0]] + a[1..] == a;
    }
  }

  /** Text free of `c` is not cut at all. */
  lemma {:induction false} SplitAbsent(a: string, c: char)
    requires forall i | 0 <= i < |a| :: a[i] != c
    ensures SplitAt(a, c) == (a, None)
  {
    if a != [] {
      SplitAbsent(a[1..], c);
      assert [a[0]] + a[1..] == a;
    }
  }

  /** Leading zeros do not change the value of a numeral. */
  lemma {:induction false} LeadingZeros(k: nat, s: string)
    requires AllDigits(s)
    ensures AllDigits(Zeros(k) + s) && ParseNat(Zeros(k) + s) == ParseNat(s)
    decreases |s|
  {
    var t := Zeros(k) + s;
    assert forall i | 0 <= i < |t| :: t[i] == if i < k then '0' else s[i - k];
    if s == [] {
      assert t == Zeros(k);
      ZerosAreZero(k);
    } else {
      assert t[..|t| - 1] == Zeros(k) + s[..|s| - 1];
      LeadingZeros(k, s[..|s| - 1]);
    }
  }

  lemma {:induction false} ZerosAreZero(k: nat)
    ensures AllDigits(Zeros(k)) && ParseNat(Zeros(k)) == 0
  {
    if k > 0 {
      assert Zeros(k)[..k - 1] == Zeros(k - 1);
      ZerosAreZero(k - 1);
    }
  }

  /** A sign and a run of digits read as the signed value of the digits. */
  lemma SignedDigits(sign: char, digits: string, value: nat)
    requires sign == '+' || sign == '-'
    requires digits != [] && AllDigits(digits) && ParseNat(digits) == value
    ensures ReadExponent([sign] + digits) == Some(if sign == '+' then value as int else 0 - value)
  {
    var t := [sign] + digits;
    assert t[0] == sign && t[1..] == digits;
  }

  /** `E+digits`: a positive exponent reads back. */
  lemma PositiveExponentReadsBack(x: int)
    requires x > 0
    ensures |ExponentText(x)| >= 2 && ExponentText(x)[0] == 'E'
    ensures ReadExponent(ExponentText(x)[1..]) == Some(x)
  {
    var digits := NatDigits(x);
    var e := ExponentText(x);
    assert e == "E+" + digits;
    assert e[0] == 'E' && e[1..] == ['+'] + digits;
    NatDigitsRoundTrip(x);
    SignedDigits('+', digits, x);
  }

  /** `E-digits`: a negative exponent reads back. */
  lemma NegativeExponentReadsBack(x: int)
    requires x < 0
    ensures |ExponentText(x)| >= 2 && ExponentText(x)[0] == 'E'
    ensures ReadExponent(ExponentText(x)[1..]) == Some(x)
  {
    var m: nat := 0 - x;
    var digits := NatDigits(m);
    var e := ExponentText(x);
    assert e == "E-" + digits;
    assert e[0] == 'E' && e[1..] == ['-'] + digits;
    NatDigitsRoundTrip(m);
    SignedDigits('-', digits, m);
  }

  /** The exponent suffix of a nonzero exponent reads back as that exponent. */
  lemma ExponentReadsBack(x: int)
    requires x != 0
    ensures |ExponentText(x)| >= 2 && ExponentText(x)[0] == 'E'
    ensures ReadExponent(ExponentText(x)[1..]) == Some(x)
  {
    if x > 0 {
      PositiveExponentReadsBack(x);
    } else {
      NegativeExponentReadsBack(x);
    }
  }

  lemma AllDigitsConcat(a: string, b: string)
    requires AllDigits(a) && AllDigits(b)
    ensures AllDigits(a + b)
  {
    assert forall i | 0 <= i < |a + b| :: (a + b)[i] == if i < |a| then a[i] else b[i - |a|];
  }

  /** A rendered mantissa holds only digits and the point. */
  predicate MantissaChars(s: string) {
    forall i | 0 <= i < |s| :: IsDigit(s[i]) || s[i] == '.'
  }

  /** A mantissa with a point reads back as the digits around it. */
  lemma MantissaAt(s: string, whole: string, fraction: string, value: nat, count: nat)
    requires AllDigits(whole) && AllDigits(fraction) && |whole| > 0
    requires s == whole + "." + fraction
    requires AllDigits(whole + fraction) ==> ParseNat(whole + fraction) == value
    requires |fraction| == count
    ensures ReadMantissa(s) == Some((value, count))
  {
    assert forall i | 0 <= i < |whole| :: whole[i] != '.';
    SplitAfter(whole, fraction, '.');
    AllDigitsConcat(whole, fraction);
  }

  /** One more leading zero in front of zero-padded digits changes nothing. */
  lemma PaddedValue(k: nat, digits: string, fraction: string)
    requires AllDigits(digits) && fraction == Zeros(k) + digits
    ensures AllDigits(fraction) && AllDigits("0" + fraction)
    ensures ParseNat("0" + fraction) == ParseNat(digits)
  {
    LeadingZeros(k, digits);
    assert "0" + fraction == Zeros(k + 1) + digits by {
      assert "0" + Zeros(k) == Zeros(k + 1) by {
        assert forall i | 0 <= i < k + 1 :: ("0" + Zeros(k))[i] == '0';
      }
    }
    LeadingZeros(k + 1, digits);
  }

  /** `0.`, `k` zeros and the digits: `0.` followed by a fraction of `k` more digits. */
  lemma BelowOneShape(s: string, digits: string, k: nat, fraction: string)
    requires s == "0." + Zeros(k) + digits && fraction == Zeros(k) + digits
    ensures s == "0." + fraction && |fraction| == k + |digits|
  {
  }

  /** `0.` and `k` zeros before the digits: all of them are fraction digits. */
  lemma MantissaBelowOne(s: string, digits: string, k: nat)
    requires AllDigits(digits) && s == "0." + Zeros(k) + digits
    ensures ReadMantissa(s) == Some((ParseNat(digits), k + |digits|))
  {
    var fraction := Zeros(k) + digits;
    BelowOneShape(s, digits, k, fraction);
    PaddedValue(k, digits, fraction);
    FractionOnly(s, fraction, ParseNat(digits), k + |digits|);
  }

  /** `0.` and fraction digits: the coefficient is the value of the fraction digits. */
  lemma FractionOnly(s: string, fraction: string, value: nat, count: nat)
    requires s == "0." + fraction && AllDigits(fraction) && ParseNat("0" + fraction) == value
    requires count == |fraction|
    ensures ReadMantissa(s) == Some((value, count))
  {
    assert s == "0" + "." + fraction;
    MantissaAt(s, "0", fraction, value, count);
  }

  lemma BelowOneChars(s: string, digits: string, k: nat)
    requires AllDigits(digits) && s == "0." + Zeros(k) + digits
    ensures MantissaChars(s) && s[0] == '0'
  {
    assert forall i | 0 <= i < |s| :: s[i] == if i < 2 then "0."[i] else if i < 2 + k then '0' else digits[i - 2 - k];
  }

  /** Digits without a point: an integral mantissa. */
  lemma MantissaWhole(digits: string)
    requires digits != [] && AllDigits(digits)
    ensures MantissaChars(digits)
    ensures ReadMantissa(digits) == Some((ParseNat(digits), 0))
  {
    assert forall i | 0 <= i < |digits| :: digits[i] != '.';
    SplitAbsent(digits, '.');
    assert digits + [] == digits;
  }

  /** A point strictly inside the digits. */
  lemma MantissaInside(s: string, digits: string, dotplace: nat)
    requires AllDigits(digits) && 0 < dotplace < |digits|
    requires s == digits[..dotplace] + "." + digits[dotplace..]
    ensures MantissaChars(s) && s[0] == digits[0]
    ensures ReadMantissa(s) == Some((ParseNat(digits), |digits| - dotplace))
  {
    var whole, fraction := digits[..dotplace], digits[dotplace..];
    assert whole + fraction == digits;
    assert AllDigits(whole) && AllDigits(fraction);
    MantissaAt(s, whole, fraction, ParseNat(digits), |digits| - dotplace);
    InsideChars(s, digits, dotplace);
  }

  lemma InsideChars(s: string, digits: string, dotplace: nat)
    requires AllDigits(digits) && 0 < dotplace < |digits|
    requires s == digits[..dotplace] + "." + digits[dotplace..]
    ensures MantissaChars(s) && s[0] == digits[0]
  {
    assert forall i | 0 <= i < |s| :: s[i] == if i < dotplace then digits[i] else if i == dotplace then '.' else digits[i - 1];
  }

  /** A mantissa with no exponent suffix: the scale is the fraction digits alone. */
  lemma ReadWithoutExponent(body: string, exp: string, coefficient: nat, fractionDigits: nat, exponent: int)
    requires MantissaChars(body) && exp == []
    requires ReadMantissa(body) == Some((coefficient, fractionDigits))
    requires exponent == 0 - fractionDigits
    ensures ReadUnsigned(body + exp) == Some((coefficient, exponent))
  {
    assert body + exp == body;
    assert forall i | 0 <= i < |body| :: body[i] != 'E';
    SplitAbsent(body, 'E');
  }

  /** Reading `body E rest` is reading the mantissa and the exponent apart. */
  lemma ReadWithExponent(body: string, exp: string, coefficient: nat, fractionDigits: nat, written: int, exponent: int)
    requires MantissaChars(body)
    requires |exp| >= 1 && exp[0] == 'E'
    requires ReadMantissa(body) == Some((coefficient, fractionDigits))
    requires ReadExponent(exp[1..]) == Some(written)
    requires exponent == written - fractionDigits
    ensures ReadUnsigned(body + exp) == Some((coefficient, exponent))
  {
    var rest := exp[1..];
    var u := body + exp;
    assert u == body + ['E'] + rest;
    assert forall i | 0 <= i < |body| :: body[i] != 'E';
    SplitAfter(body, rest, 'E');
    UnsignedFromParts(u, body, rest, coefficient, fractionDigits, written, exponent);
  }

  /** Text cut at its `E` into a mantissa and an exponent reads as their combination. */
  lemma UnsignedFromParts(u: string, mantissa: string, power: string,
                          coefficient: nat, fractionDigits: nat, written: int, exponent: int)
    requires SplitAt(u, 'E') == (mantissa, Some(power))
    requires ReadMantissa(mantissa) == Some((coefficient, fractionDigits))
    requires ReadExponent(power) == Some(written)
    requires exponent == written - fractionDigits
    ensures ReadUnsigned(u) == Some((coefficient, exponent))
  {
    assert ReadPower(Some(power)) == Some(written);
  }

  /** A leading minus sign is the sign; the rest is read unsigned. */
  lemma ReadSigned(negative: bool, body: string, exp: string, v: (nat, int))
    requires body != [] && MantissaChars(body)
    requires ReadUnsigned(body + exp) == Some(v)
    ensures ReadDecimal((if negative then "-" else "") + body + exp) == Some(DecimalNumber(negative, v.0, v.1))
  {
    var u := body + exp;
    assert body[0] != '-';
    if negative {
      var t := "-" + body + exp;
      assert t[0] == '-' && t[1..] == u;
    } else {
      assert [] + body + exp == u && u[0] == body[0];
    }
  }

  /** Plain notation below one: `0.`, zeros, then the digits. */
  lemma BelowOneRoundTrip(d: DecimalNumber)
    requires d.exponent <= 0 && -6 < d.exponent + |NatDigits(d.coefficient)| <= 0
    ensures ReadDecimal(DecimalText(d)) == Some(d)
  {
    var digits := NatDigits(d.coefficient);
    var k: nat := 0 - (d.exponent + |digits|);
    var body := "0." + Zeros(k) + digits;
    var exp := ExponentText(0);
    var sign := if d.negative then "-" else "";
    assert DecimalText(d) == sign + body + exp;
    MantissaBelowOne(body, digits, k);
    BelowOneChars(body, digits, k);
    ReadWithoutExponent(body, exp, ParseNat(digits), k + |digits|, d.exponent);
    ReadSigned(d.negative, body, exp, (ParseNat(digits), d.exponent));
    NatDigitsRoundTrip(d.coefficient);
    assert DecimalNumber(d.negative, ParseNat(digits), d.exponent) == d;
  }

  /** Exponent zero: the digits alone. */
  lemma IntegralRoundTrip(d: DecimalNumber)
    requires d.exponent == 0
    ensures ReadDecimal(DecimalText(d)) == Some(d)
  {
    var digits := NatDigits(d.coefficient);
    var exp := ExponentText(0);
    var sign := if d.negative then "-" else "";
    assert Zeros(0) == [] && digits + [] == digits;
    assert DecimalText(d) == sign + digits + exp;
    MantissaWhole(digits);
    ReadWithoutExponent(digits, exp, ParseNat(digits), 0, d.exponent);
    ReadSigned(d.negative, digits, exp, (ParseNat(digits), d.exponent));
    NatDigitsRoundTrip(d.coefficient);
    assert DecimalNumber(d.negative, ParseNat(digits), d.exponent) == d;
  }

  /** Plain notation with the point among the digits. */
  lemma InsideRoundTrip(d: DecimalNumber)
    requires d.exponent < 0 && 0 < d.exponent + |NatDigits(d.coefficient)|
    ensures ReadDecimal(DecimalText(d)) == Some(d)
  {
    var digits := NatDigits(d.coefficient);
    var dotplace: nat := d.exponent + |digits|;
    var body := digits[..dotplace] + "." + digits[dotplace..];
    var exp := ExponentText(0);
    var sign := if d.negative then "-" else "";
    assert DecimalText(d) == sign + body + exp;
    MantissaInside(body, digits, dotplace);
    ReadWithoutExponent(body, exp, ParseNat(digits), |digits| - dotplace, d.exponent);
    ReadSigned(d.negative, body, exp, (ParseNat(digits), d.exponent));
    NatDigitsRoundTrip(d.coefficient);
    assert DecimalNumber(d.negative, ParseNat(digits), d.exponent) == d;
  }

  /** Scientific notation of a single digit: the digit and the exponent. */
  lemma ScientificDigitRoundTrip(d: DecimalNumber)
    requires !(d.exponent <= 0 && d.exponent + |NatDigits(d.coefficient)| > -6)
    requires |NatDigits(d.coefficient)| == 1
    ensures ReadDecimal(DecimalText(d)) == Some(d)
  {
    var digits := NatDigits(d.coefficient);
    var x := d.exponent;
    var exp := ExponentText(x);
    var sign := if d.negative then "-" else "";
    assert x != 0;
    assert Zeros(0) == [] && digits + [] == digits;
    assert DecimalText(d) == sign + digits + exp;
    MantissaWhole(digits);
    ExponentReadsBack(x);
    ReadWithExponent(digits, exp, ParseNat(digits), 0, x, d.exponent);
    ReadSigned(d.negative, digits, exp, (ParseNat(digits), d.exponent));
    NatDigitsRoundTrip(d.coefficient);
    assert DecimalNumber(d.negative, ParseNat(digits), d.exponent) == d;
  }

  /** Scientific notation of several digits: one digit, the point, the rest, the exponent. */
  lemma ScientificPointRoundTrip(d: DecimalNumber)
    requires !(d.exponent <= 0 && d.exponent + |NatDigits(d.coefficient)| > -6)
    requires |NatDigits(d.coefficient)| > 1
    ensures ReadDecimal(DecimalText(d)) == Some(d)
  {
    var digits := NatDigits(d.coefficient);
    var x := d.exponent + |digits| - 1;
    var body := digits[..1] + "." + digits[1..];
    var exp := ExponentText(x);
    var sign := if d.negative then "-" else "";
    assert x != 0;
    assert DecimalText(d) == sign + body + exp;
    MantissaInside(body, digits, 1);
    ExponentReadsBack(x);
    ReadWithExponent(body, exp, ParseNat(digits), |digits| - 1, x, d.exponent);
    ReadSigned(d.negative, body, exp, (ParseNat(digits), d.exponent));
    NatDigitsRoundTrip(d.coefficient);
    assert DecimalNumber(d.negative, ParseNat(digits), d.exponent) == d;
  }

  /**
   * Decimal(str(d)) == d: the rendering reads back to the same sign,
   * coefficient and exponent, so the literal denotes exactly the value.
   */
  lemma DecimalTextRoundTrip(d: DecimalNumber)
    ensures ReadDecimal(DecimalText(d)) == Some(d)
  {
    var leftdigits := d.exponent + |NatDigits(d.coefficient)|;
    if d.exponent <= 0 && leftdigits > -6 {
      if leftdigits <= 0 {
        BelowOneRoundTrip(d);
      } else if d.exponent == 0 {
        IntegralRoundTrip(d);
      } else {
        InsideRoundTrip(d);
      }
    } else if |NatDigits(d.coefficient)| == 1 {
      ScientificDigitRoundTrip(d);
    } else {
      ScientificPointRoundTrip(d);
    }
  }

  // ---------------------------------------------------------------------
  // The conversions table and process_args
  // ---------------------------------------------------------------------

  /** The argument values the compiler hands to `execute`, by Python type. */
  datatype Value =
    | Int(i: int)
    | Long(l: int)
    | Bool(b: bool)
    | NoneValue
    | Str(s: string)
    | Unicode(u: string)
    | Decimal(d: DecimalNumber)
    | Date
    | DateTime
    | TimeDelta
    | List(items: seq<Value>)
    | Tuple(elements: seq<Value>)
    | StrSubclass(subclass: string, text: string)           // a type not in the table that behaves like str
    // any other type not in the table; `jsonEncodable` says whether json.dumps
    // accepts it (a dict, or a subclass of int, long, float, list or tuple)
    | Foreign(typeName: string, hasReplace: bool, jsonEncodable: bool)

  /** The key `type(item)` looks up in the conversions table. */
  datatype PyType =
    | IntType | LongType | FloatType | NoneType | ListType | TupleType | StrType
    | UnicodeType | BoolType | DateType | DateTimeType | TimeDeltaType | DecimalType
    | OtherType(name: string)

  /** The keys of the conversions table. */
  const Registered: set<PyType> :=
    {IntType, LongType, FloatType, NoneType, ListType, TupleType, StrType,
     UnicodeType, BoolType, DateType, DateTimeType, TimeDeltaType, DecimalType}

  function TypeOf(v: Value): PyType {
    match v
    case Int(_) => IntType
    case Long(_) => LongType
    case Bool(_) => BoolType
    case NoneValue => NoneType
    case Str(_) => StrType
    case Unicode(_) => UnicodeType
    case Decimal(_) => DecimalType
    case Date => DateType
    case DateTime => DateTimeType
    case TimeDelta => TimeDeltaType
    case List(_) => ListType
    case Tuple(_) => TupleType
    case StrSubclass(name, _) => OtherType(name)
    case Foreign(name, _, _) => OtherType(name)
  }

  predicate IsAscii(s: string) {
    forall k | 0 <= k < |s| :: s[k] < 128 as char
  }

  /**
   * quoted_string_literal applied to an arbitrary value: it calls
   * `s.replace`, which fails with AttributeError on a value without that
   * method; a `replace` of another signature raises TypeError, which is
   * turned into NotImplementedError.
   */
  function StringLiteral(v: Value): (r: Result<string, Error>)
    ensures r.Ok? <==> v.Str? || v.Unicode? || v.StrSubclass?
    ensures v.Str? ==> r == Ok(QuotedStringLiteral(v.s))
    ensures v.Unicode? ==> r == Ok(QuotedStringLiteral(v.u))
    ensures v.StrSubclass? ==> r == Ok(QuotedStringLiteral(v.text))
    ensures v.Foreign? ==>
      r == Err(if v.hasReplace then NotImplementedError(v.typeName) else AttributeError("replace"))
  {
    match v
    case Str(s) => Ok(QuotedStringLiteral(s))
    case Unicode(u) => Ok(QuotedStringLiteral(u))
    case StrSubclass(_, s) => Ok(QuotedStringLiteral(s))
    case Date => Err(NotImplementedError("datetime.date"))
    case DateTime => Err(NotImplementedError("datetime.datetime"))
    case Foreign(name, hasReplace, _) =>
      if hasReplace then Err(NotImplementedError(name)) else Err(AttributeError("replace"))
    case _ => Err(AttributeError("replace"))
  }

  /**
   * `_escape(item, conversions)`: the table entry for the value's exact
   * type, or the `str` entry for a type the table does not list.
   */
  function Escape(v: Value): Result<string, Error> {
    match v
    case Int(i) => Ok(IntText(i))
    case Long(l) => Ok(IntText(l))
    case Bool(b) => Ok(if b then "1" else "0")
    case NoneValue => Ok("NULL")
    case Str(_) => StringLiteral(v)
    case Unicode(u) => if IsAscii(u) then Ok(QuotedStringLiteral(u)) else Err(UnicodeEncodeError)
    case Decimal(d) => Ok(DecimalText(d))
    // the date and datetime entries call the undefined name `date`
    case Date => Err(NameError("date"))
    case DateTime => Err(NameError("date"))
    // the timedelta entry calls string_literal with one argument of two
    case TimeDelta => Err(TypeError("quoted_string_literal() takes exactly 2 arguments (1 given)"))
    // the list and tuple entries call the undefined name `escape_item` once per element
    case List(items) => if items == [] then Ok("()") else Err(NameError("escape_item"))
    case Tuple(elements) => if elements == [] then Ok("()") else Err(NameError("escape_item"))
    case StrSubclass(_, _) => StringLiteral(v)
    case Foreign(_, _, _) => StringLiteral(v)
  }

  /**
   * A value whose exact type has no entry in the table is encoded by the
   * `str` entry, and the `str` entry is the quoting function itself.
   */
  lemma EscapeFallback(v: Value)
    ensures TypeOf(v) !in Registered ==> Escape(v) == StringLiteral(v)
    ensures v.Str? ==> Escape(v) == StringLiteral(v)
  {
  }

  /** What each registered type's entry yields, including the entries that raise. */
  lemma EscapeTable(v: Value)
    ensures v.Int? ==> Escape(v) == Ok(IntText(v.i))
    ensures v.Long? ==> Escape(v) == Ok(IntText(v.l))
    ensures v.Bool? ==> Escape(v) == Ok(if v.b then "1" else "0")
    ensures v.NoneValue? ==> Escape(v) == Ok("NULL")
    ensures v.Str? ==> Escape(v) == Ok(QuotedStringLiteral(v.s))
    ensures v.Unicode? && IsAscii(v.u) ==> Escape(v) == Ok(QuotedStringLiteral(v.u))
    ensures v.Decimal? ==> Escape(v) == Ok(DecimalText(v.d))
    ensures v.Unicode? && !IsAscii(v.u) ==> Escape(v) == Err(UnicodeEncodeError)
    ensures v.Date? || v.DateTime? ==> Escape(v) == Err(NameError("date"))
    ensures v.TimeDelta? ==> Escape(v).Err? && Escape(v).error.TypeError?
    ensures v.List? ==> Escape(v) == if v.items == [] then Ok("()") else Err(NameError("escape_item"))
    ensures v.Tuple? ==> Escape(v) == if v.elements == [] then Ok("()") else Err(NameError("escape_item"))
  {
  }

  /**
   * An integral Decimal with exponent 0 renders like the int of the same
   * value (except negative zero, which Decimal keeps as "-0").
   */
  lemma DecimalAgreesWithInt(d: DecimalNumber)
    requires d.exponent == 0 && !(d.negative && d.coefficient == 0)
    ensures Escape(Decimal(d)) == Escape(Int(if d.negative then 0 - d.coefficient as int else d.coefficient))
  {
    var digits := NatDigits(d.coefficient);
    var sign := if d.negative then "-" else "";
    assert Zeros(0) == "";
    assert DecimalText(d) == sign + digits;
    if d.negative {
      assert IntText(0 - d.coefficient as int) == "-" + digits;
    } else {
      assert sign + digits == digits;
    }
  }

  /** Numeric, boolean and NULL encodings are unquoted: they hold no quote character. */
  lemma {:induction false} NumbersHaveNoQuote(v: Value)
    requires v.Int? || v.Long? || v.Bool? || v.NoneValue?
    ensures Escape(v).Ok? && Count(Escape(v).value, '\'') == 0
  {
    match v
    case Int(i) => IntTextHasNoQuote(i);
    case Long(l) => IntTextHasNoQuote(l);
    case Bool(_) =>
    case NoneValue =>
  }

  lemma {:induction false} DigitsHaveNoQuote(s: string)
    requires AllDigits(s)
    ensures Count(s, '\'') == 0
  {
    if s != [] {
      DigitsHaveNoQuote(s[1..]);
    }
  }

  lemma IntTextHasNoQuote(i: int)
    ensures Count(IntText(i), '\'') == 0
  {
    var m: nat := if i < 0 then -i else i;
    DigitsHaveNoQuote(NatDigits(m));
    if i < 0 {
      assert IntText(i)[1..] == NatDigits(m);
    }
  }

  /**
   * process_args: every argument escaped, in order; the first argument
   * whose conversion raises aborts the whole tuple.
   */
  function ProcessArgs(args: seq<Value>): (r: Result<seq<string>, Error>)
    ensures r.Ok? <==> forall i | 0 <= i < |args| :: Escape(args[i]).Ok?
    ensures r.Ok? ==> |r.value| == |args| && forall i | 0 <= i < |args| :: Escape(args[i]) == Ok(r.value[i])
  {
    if args == [] then Ok([])
    else
      match Escape(args[0])
      case Err(e) => Err(e)
      case Ok(head) =>
        match ProcessArgs(args[1..])
        case Err(e) => Err(e)
        case Ok(tail) => Ok([head] + tail)
  }

  /** The error process_args raises is that of the first failing argument. */
  lemma {:induction false} ProcessArgsFirstError(args: seq<Value>, i: nat)
    requires i < |args| && Escape(args[i]).Err?
    requires forall j | 0 <= j < i :: Escape(args[j]).Ok?
    ensures ProcessArgs(args) == Err(Escape(args[i]).error)
  {
    if i > 0 {
      var tail := args[1..];
      assert tail[i - 1] == args[i];
      assert forall j | 0 <= j < i - 1 :: Escape(tail[j]).Ok? by {
        forall j | 0 <= j < i - 1 ensures Escape(tail[j]).Ok? {
          assert tail[j] == args[j + 1];
        }
      }
      ProcessArgsFirstError(tail, i - 1);
      assert Escape(args[0]).Ok? && ProcessArgs(tail).Err?;
    }
  }

  // ---------------------------------------------------------------------
  // `q % process_args(args)`, for the `%s` and `%%` directives
  // ---------------------------------------------------------------------

  const NotEnoughArguments := "not enough arguments for format string"
  const NotAllConverted := "not all arguments converted during string formatting"
  const NumberRequired := "a number is required"

  /** Conversions that need a number; every argument here is a string. */
  const NumericConversions := "diouxXeEfFgG"

  function PrependTo(prefix: string, r: Result<string, Error>): Result<string, Error> {
    match r
    case Ok(t) => Ok(prefix + t)
    case Err(e) => Err(e)
  }

  /** Python's `q % args` with `args` a tuple of strings, left to right. */
  function Format(q: string, args: seq<string>): Result<string, Error>
    decreases |q|
  {
    if q == [] then
      if args == [] then Ok([]) else Err(TypeError(NotAllConverted))
    else if q[0] != '%' then PrependTo([q[0]], Format(q[1..], args))
    else if |q| == 1 then Err(ValueError("incomplete format"))
    else if q[1] == '%' then PrependTo("%", Format(q[2..], args))
    else if q[1] == 's' then
      if args == [] then Err(TypeError(NotEnoughArguments))
      else PrependTo(args[0], Format(q[2..], args[1..]))
    else if q[1] in NumericConversions then
      if args == [] then Err(TypeError(NotEnoughArguments)) else Err(TypeError(NumberRequired))
    else Err(ValueError("unsupported format character"))
  }

  /** Every `%` in `q` starts a `%s` or `%%` directive. */
  predicate OnlyStringDirectives(q: string)
    decreases |q|
  {
    if q == [] then true
    else if q[0] != '%' then OnlyStringDirectives(q[1..])
    else |q| >= 2 && (q[1] == '%' || q[1] == 's') && OnlyStringDirectives(q[2..])
  }

  /** Number of `%s` directives in `q`. */
  function Slots(q: string): nat
    decreases |q|
  {
    if q == [] then 0
    else if q[0] == '%' && |q| >= 2 && q[1] == 's' then 1 + Slots(q[2..])
    else if q[0] == '%' && |q| >= 2 && q[1] == '%' then Slots(q[2..])
    else Slots(q[1..])
  }

  /** Formatting succeeds exactly when the directives are understood and one argument fills each slot. */
  lemma {:induction false} FormatSucceedsIff(q: string, args: seq<string>)
    ensures Format(q, args).Ok? <==> OnlyStringDirectives(q) && Slots(q) == |args|
    decreases |q|
  {
    if q == [] {
    } else if q[0] != '%' {
      FormatSucceedsIff(q[1..], args);
    } else if |q| == 1 {
    } else if q[1] == '%' {
      FormatSucceedsIff(q[2..], args);
    } else if q[1] == 's' {
      if args != [] {
        FormatSucceedsIff(q[2..], args[1..]);
      }
    }
  }

  /** Two prefixes applied in turn are one prefix. */
  lemma PrependTwice(a: string, b: string, r: Result<string, Error>)
    ensures PrependTo(a, PrependTo(b, r)) == PrependTo(a + b, r)
  {
    if r.Ok? {
      assert a + (b + r.value) == a + b + r.value;
    }
  }

  /** A `%s` directive is replaced by its argument verbatim; the text before it is copied. */
  lemma {:induction false} FormatSubstitutes(p: string, s: string, x: string, args: seq<string>)
    requires forall k | 0 <= k < |p| :: p[k] != '%'
    ensures Format(p + "%s" + s, [x] + args) == PrependTo(p + x, Format(s, args))
    decreases |p|
  {
    var q := p + "%s" + s;
    if p == [] {
      assert q == "%s" + s && q[2..] == s;
      assert ([x] + args)[1..] == args && p + x == x;
    } else {
      assert q[0] == p[0] && q[1..] == p[1..] + "%s" + s;
      FormatSubstitutes(p[1..], s, x, args);
      PrependTwice([p[0]], p[1..] + x, Format(s, args));
      assert [p[0]] + (p[1..] + x) == p + x;
    }
  }

  /** A `%%` directive becomes one `%` and consumes no argument. */
  lemma {:induction false} FormatPercent(p: string, s: string, args: seq<string>)
    requires forall k | 0 <= k < |p| :: p[k] != '%'
    ensures Format(p + "%%" + s, args) == PrependTo(p + "%", Format(s, args))
    decreases |p|
  {
    var q := p + "%%" + s;
    if p == [] {
      assert q == "%%" + s && q[2..] == s && p + "%" == "%";
    } else {
      assert q[0] == p[0] && q[1..] == p[1..] + "%%" + s;
      FormatPercent(p[1..], s, args);
      PrependTwice([p[0]], p[1..] + "%", Format(s, args));
      assert [p[0]] + (p[1..] + "%") == p + "%";
    }
  }

  /**
   * A directive other than `%s` and `%%` fails where it stands: a numeric
   * conversion with TypeError (there is no number among the strings to
   * format), any other character with ValueError.
   */
  lemma {:induction false} FormatOtherDirective(p: string, c: char, s: string, args: seq<string>)
    requires forall k | 0 <= k < |p| :: p[k] != '%'
    requires c != 's' && c != '%'
    ensures c in NumericConversions ==>
      Format(p + ['%', c] + s, args) == Err(TypeError(if args == [] then NotEnoughArguments else NumberRequired))
    ensures c !in NumericConversions ==>
      Format(p + ['%', c] + s, args) == Err(ValueError("unsupported format character"))
    decreases |p|
  {
    var q := p + ['%', c] + s;
    if p == [] {
      assert q[0] == '%' && q[1] == c;
    } else {
      assert q[0] == p[0] && q[1..] == p[1..] + ['%', c] + s;
      FormatOtherDirective(p[1..], c, s, args);
    }
  }

  /** Text without a `%` passes through unchanged when there are no arguments. */
  lemma {:induction false} FormatWithoutDirectives(q: string)
    requires forall k | 0 <= k < |q| :: q[k] != '%'
    ensures Format(q, []) == Ok(q)
    decreases |q|
  {
    if q != [] {
      FormatWithoutDirectives(q[1..]);
      assert [q[0]] + q[1..] == q;
    }
  }
}

=== FILE: requests.dfy ===
/**
 * The routing half of `CursorWrapper.execute`: the debug rendering of the
 * query, the choice of SELECT / INSERT / DELETE by prefix, and the single
 * REST request that choice builds.
 */
module Requests {
  import opened Wrappers
  import opened Exceptions
  import opened Literals
  import opened UrlEncoding

  const ApiStub := "/services/data/v23.0"

  /** What auth.authenticate returns: the bearer token and the instance URL. */
  datatype Credential = Credential(accessToken: string, instanceUrl: string)

  /** What `execute` reads from the Django query object the cursor was built with. */
  datatype QueryContext = QueryContext(
    table: string,               // compiler.process_name(model._meta.db_table)
    columns: seq<string>,        // query.columns
    params: seq<Value>,          // query.params
    deleteKey: Option<string>)   // where.children[0][-1][0]; None when the where clause has no child

  datatype Kind = Select | Insert | Delete

  datatype Verb = HttpGet | HttpPost | HttpDelete

  /** One REST call; the payload is the mapping json.dumps serialises. */
  datatype Request = Request(verb: Verb, url: string, headers: map<string, string>, payload: Option<map<string, Value>>)

  // ---------------------------------------------------------------------
  // Classifying the query text
  // ---------------------------------------------------------------------

  /** str.upper on one character (ASCII letters only). */
  function ToUpper(c: char): char {
    if 'a' <= c <= 'z' then (c as int - 32) as char else c
  }

  function Upper(s: string): (r: string)
    ensures |r| == |s| && forall i | 0 <= i < |s| :: r[i] == ToUpper(s[i])
  {
    seq(|s|, i requires 0 <= i < |s| => ToUpper(s[i]))
  }

  predicate StartsWith(s: string, prefix: string) {
    |prefix| <= |s| && s[..|prefix|] == prefix
  }

  /** The operation `execute` picks: the first of SELECT, INSERT, DELETE that prefixes `q.upper()`. */
  function KindOf(q: string): Option<Kind> {
    var u := Upper(q);
    if StartsWith(u, "SELECT") then Some(Select)
    else if StartsWith(u, "INSERT") then Some(Insert)
    else if StartsWith(u, "DELETE") then Some(Delete)
    else None
  }

  function Keyword(k: Kind): string {
    match k
    case Select => "SELECT"
    case Insert => "INSERT"
    case Delete => "DELETE"
  }

  /** `q` begins with `keyword`, letter case ignored. */
  predicate MatchesKeyword(q: string, keyword: string) {
    |keyword| <= |q| && forall i | 0 <= i < |keyword| :: ToUpper(q[i]) == keyword[i]
  }

  lemma StartsWithUpper(q: string, keyword: string)
    ensures StartsWith(Upper(q), keyword) <==> MatchesKeyword(q, keyword)
  {
    if MatchesKeyword(q, keyword) {
      assert Upper(q)[..|keyword|] == keyword;
    }
    if StartsWith(Upper(q), keyword) {
      forall i | 0 <= i < |keyword| ensures ToUpper(q[i]) == keyword[i] {
        assert Upper(q)[..|keyword|][i] == Upper(q)[i];
      }
    }
  }

  /**
   * Routing is a case-insensitive keyword match; the three keywords differ
   * in their first letter, so the order of the tests never matters.
   */
  lemma KindOfMatchesKeyword(q: string, k: Kind)
    ensures KindOf(q) == Some(k) <==> MatchesKeyword(q, Keyword(k))
  {
    StartsWithUpper(q, "SELECT");
    StartsWithUpper(q, "INSERT");
    StartsWithUpper(q, "DELETE");
  }

  /** Text that starts with none of the three keywords is not routed. */
  lemma KindOfUnrecognised(q: string)
    ensures KindOf(q).None? <==>
      !MatchesKeyword(q, "SELECT") && !MatchesKeyword(q, "INSERT") && !MatchesKeyword(q, "DELETE")
  {
    KindOfMatchesKeyword(q, Select);
    KindOfMatchesKeyword(q, Insert);
    KindOfMatchesKeyword(q, Delete);
  }

  // ---------------------------------------------------------------------
  // The INSERT body: dict(zip(columns, params))
  // ---------------------------------------------------------------------

  function Min(a: nat, b: nat): nat {
    if a <= b then a else b
  }

  /** zip(): pairs up to the shorter of the two lists. */
  function Zip(columns: seq<string>, params: seq<Value>): (r: seq<(string, Value)>)
    ensures |r| == Min(|columns|, |params|)
    ensures forall i | 0 <= i < |r| :: r[i] == (columns[i], params[i])
  {
    seq(Min(|columns|, |params|), i requires 0 <= i < Min(|columns|, |params|) => (columns[i], params[i]))
  }

  /** dict(pairs): later pairs overwrite earlier ones with the same key. */
  function DictOf(pairs: seq<(string, Value)>): map<string, Value> {
    if pairs == [] then map[]
    else DictOf(pairs[..|pairs| - 1])[pairs[|pairs| - 1].0 := pairs[|pairs| - 1].1]
  }

  function PostData(columns: seq<string>, params: seq<Value>): map<string, Value> {
    DictOf(Zip(columns, params))
  }

  /**
   * What json.dumps can encode: numbers, booleans, None, strings (str
   * subclasses included), lists or tuples of those, and the other objects
   * its isinstance tests accept. A Decimal, a date, a datetime or a
   * timedelta makes it raise TypeError.
   */
  predicate Serialisable(v: Value) {
    match v
    case Int(_) => true
    case Long(_) => true
    case Bool(_) => true
    case NoneValue => true
    case Str(_) => true
    case Unicode(_) => true
    case StrSubclass(_, _) => true
    case List(items) => forall i | 0 <= i < |items| :: Serialisable(items[i])
    case Tuple(elements) => forall i | 0 <= i < |elements| :: Serialisable(elements[i])
    case Foreign(_, _, encodable) => encodable
    case _ => false
  }

  /** json.dumps(body) succeeds: every value in the mapping can be encoded. */
  predicate Dumpable(body: map<string, Value>) {
    forall k | k in body :: Serialisable(body[k])
  }

  const NotSerialisable := "is not JSON serializable"

  lemma {:induction false} DictOfKeys(pairs: seq<(string, Value)>)
    ensures DictOf(pairs).Keys == set i | 0 <= i < |pairs| :: pairs[i].0
  {
    if pairs != [] {
      var init := pairs[..|pairs| - 1];
      DictOfKeys(init);
      assert forall i | 0 <= i < |init| :: init[i] == pairs[i];
    }
  }

  lemma {:induction false} DictOfLastWins(pairs: seq<(string, Value)>, i: nat)
    requires i < |pairs|
    requires forall j | i < j < |pairs| :: pairs[j].0 != pairs[i].0
    ensures pairs[i].0 in DictOf(pairs) && DictOf(pairs)[pairs[i].0] == pairs[i].1
  {
    var init := pairs[..|pairs| - 1];
    if i < |pairs| - 1 {
      assert forall j | i < j < |init| :: init[j] == pairs[j];
      DictOfLastWins(init, i);
    }
  }

  /** The INSERT body has a key for each column that has a parameter, and no other. */
  lemma PostDataKeys(columns: seq<string>, params: seq<Value>)
    ensures PostData(columns, params).Keys == set i | 0 <= i < Min(|columns|, |params|) :: columns[i]
  {
    DictOfKeys(Zip(columns, params));
  }

  /** A column maps to the parameter at its last position among the zipped pairs. */
  lemma PostDataValue(columns: seq<string>, params: seq<Value>, i: nat)
    requires i < |columns| && i < |params|
    requires forall j | i < j < Min(|columns|, |params|) :: columns[j] != columns[i]
    ensures columns[i] in PostData(columns, params) && PostData(columns, params)[columns[i]] == params[i]
  {
    DictOfLastWins(Zip(columns, params), i);
  }

  // ---------------------------------------------------------------------
  // Building the request
  // ---------------------------------------------------------------------

  /** `debug_sql = q % process_args(args)`; `args` defaults to None, which cannot be iterated. */
  function DebugSql(q: string, args: Option<seq<Value>>): Result<string, Error> {
    match args
    case None => Err(TypeError("'NoneType' object is not iterable"))
    case Some(a) =>
      match ProcessArgs(a)
      case Err(e) => Err(e)
      case Ok(encoded) => Format(q, encoded)
  }

  /**
   * A string argument reaches the SOQL text as one quoted literal, in the
   * place of its `%s`, and reading that literal back gives the argument.
   */
  lemma DebugSqlQuotesString(p: string, s: string, text: string)
    requires forall k | 0 <= k < |p| :: p[k] != '%'
    requires forall k | 0 <= k < |s| :: s[k] != '%'
    requires s == [] || s[0] != '\''
    ensures DebugSql(p + "%s" + s, Some([Str(text)])) == Ok(p + QuotedStringLiteral(text) + s)
    ensures ReadLiteral((p + QuotedStringLiteral(text) + s)[|p|..]) == Some((text, s))
  {
    var quoted := QuotedStringLiteral(text);
    assert Escape(Str(text)) == Ok(quoted);
    var args := [Str(text)];
    assert args[0] == Str(text) && args[1..] == [];
    assert ProcessArgs(args) == Ok([quoted] + []);
    FormatSubstitutes(p, s, quoted, []);
    FormatWithoutDirectives(s);
    assert (p + quoted + s)[|p|..] == quoted + s;
    QuotedLiteralReadsBack(text, s);
  }

  function BaseUrl(cred: Credential): string {
    cred.instanceUrl + ApiStub
  }

  /** Everything `execute` does before the request is handed to restkit. */
  function Plan(cred: Credential, ctx: QueryContext, q: string, args: Option<seq<Value>>): (r: Result<Request, Error>)
    ensures DebugSql(q, args).Err? ==> r == Err(DebugSql(q, args).error)
    ensures DebugSql(q, args).Ok? && KindOf(q).None? ==>
      r == Err(DatabaseError("Unsupported query: " + DebugSql(q, args).value))
    ensures r.Ok? ==> KindOf(q).Some? && DebugSql(q, args).Ok?
    ensures r.Ok? ==> "Authorization" in r.value.headers && r.value.headers["Authorization"] == "OAuth " + cred.accessToken
    ensures r.Ok? ==> ("Content-Type" in r.value.headers <==> KindOf(q) == Some(Insert))
    ensures r.Ok? ==> StartsWith(r.value.url, BaseUrl(cred))
    ensures r.Ok? ==> (r.value.payload.Some? <==> r.value.verb == HttpPost)
    ensures r.Ok? && r.value.payload.Some? ==> Dumpable(r.value.payload.value)
  {
    match DebugSql(q, args)
    case Err(e) => Err(e)
    case Ok(debug) =>
      var headers := map["Authorization" := "OAuth " + cred.accessToken];
      match KindOf(q)
      case None => Err(DatabaseError("Unsupported query: " + debug))
      case Some(Select) =>
        (match EncodeQuery(debug)
         case Err(e) => Err(e)
         case Ok(query) => Ok(Request(HttpGet, BaseUrl(cred) + "/query" + "?" + query, headers, None)))
      case Some(Insert) =>
        var body := PostData(ctx.columns, ctx.params);
        if !Dumpable(body) then Err(TypeError(NotSerialisable))
        else Ok(Request(HttpPost, BaseUrl(cred) + "/sobjects/" + ctx.table + "/",
                        headers["Content-Type" := "application/json"], Some(body)))
      case Some(Delete) =>
        (match ctx.deleteKey
         case None => Err(IndexError)
         case Some(pk) => Ok(Request(HttpDelete, BaseUrl(cred) + "/sobjects/" + ctx.table + "/" + pk, headers, None)))
  }

  /** The query URL is the query endpoint, `?q=`, and the escaped value. */
  lemma QueryUrlSplits(base: string, query: string)
    requires |query| >= 2 && query[..2] == "q="
    ensures var url := base + "/query" + "?" + query;
      var prefix := base + "/query?q=";
      StartsWith(url, prefix) && url[|prefix|..] == query[2..]
  {
    var enc := query[2..];
    assert query == "q=" + enc;
    var prefix := base + "/query?q=";
    var url := base + "/query" + "?" + query;
    assert url == prefix + enc;
    assert url[..|prefix|] == prefix && url[|prefix|..] == enc;
  }

  /**
   * A SELECT is planned exactly when the rendered query can be URL-encoded;
   * it is then a GET with no body whose single query parameter `q` decodes
   * back to the rendered query text.
   */
  lemma SelectRequest(cred: Credential, ctx: QueryContext, q: string, args: Option<seq<Value>>)
    requires KindOf(q) == Some(Select) && DebugSql(q, args).Ok?
    ensures Plan(cred, ctx, q, args).Ok? <==> QuotePlus(DebugSql(q, args).value).Ok?
    ensures Plan(cred, ctx, q, args).Err? ==> Plan(cred, ctx, q, args).error == UnicodeEncodeError
    ensures Plan(cred, ctx, q, args).Ok? ==>
      var req := Plan(cred, ctx, q, args).value;
      var prefix := BaseUrl(cred) + "/query?q=";
      && req.verb == HttpGet
      && req.payload.None?
      && req.headers == map["Authorization" := "OAuth " + cred.accessToken]
      && StartsWith(req.url, prefix)
      && UnquotePlus(req.url[|prefix|..]) == DebugSql(q, args).value
      && IsEncoded(req.url[|prefix|..])
  {
    var debug := DebugSql(q, args).value;
    if EncodeQuery(debug).Err? {
      return;
    }
    var url := BaseUrl(cred) + "/query" + "?" + EncodeQuery(debug).value;
    assert Plan(cred, ctx, q, args).value
      == Request(HttpGet, url, map["Authorization" := "OAuth " + cred.accessToken], None);
    QueryUrlSplits(BaseUrl(cred), EncodeQuery(debug).value);
  }

  /**
   * An INSERT POSTs the zipped columns and parameters as JSON to the
   * table's collection; a parameter json.dumps cannot encode raises
   * TypeError before anything is sent.
   */
  lemma InsertRequest(cred: Credential, ctx: QueryContext, q: string, args: Option<seq<Value>>)
    requires KindOf(q) == Some(Insert) && DebugSql(q, args).Ok?
    ensures !Dumpable(PostData(ctx.columns, ctx.params)) ==> Plan(cred, ctx, q, args) == Err(TypeError(NotSerialisable))
    ensures Dumpable(PostData(ctx.columns, ctx.params)) ==> Plan(cred, ctx, q, args) == Ok(Request(
      HttpPost,
      BaseUrl(cred) + "/sobjects/" + ctx.table + "/",
      map["Authorization" := "OAuth " + cred.accessToken, "Content-Type" := "application/json"],
      Some(PostData(ctx.columns, ctx.params))))
  {
  }

  /**
   * A parameter json.dumps cannot encode (a Decimal, say) fails the whole
   * INSERT once it survives into the body, that is once no later column
   * has the same name.
   */
  lemma UnserialisableParameterFails(cred: Credential, ctx: QueryContext, q: string, args: Option<seq<Value>>, i: nat)
    requires KindOf(q) == Some(Insert) && DebugSql(q, args).Ok?
    requires i < |ctx.columns| && i < |ctx.params| && !Serialisable(ctx.params[i])
    requires forall j | i < j < Min(|ctx.columns|, |ctx.params|) :: ctx.columns[j] != ctx.columns[i]
    ensures Plan(cred, ctx, q, args) == Err(TypeError(NotSerialisable))
  {
    PostDataValue(ctx.columns, ctx.params, i);
    InsertRequest(cred, ctx, q, args);
  }

  /** A DELETE targets the record by primary key; without one it fails before any request exists. */
  lemma DeleteRequest(cred: Credential, ctx: QueryContext, q: string, args: Option<seq<Value>>)
    requires KindOf(q) == Some(Delete) && DebugSql(q, args).Ok?
    ensures ctx.deleteKey.None? ==> Plan(cred, ctx, q, args) == Err(IndexError)
    ensures ctx.deleteKey.Some? ==> Plan(cred, ctx, q, args) == Ok(Request(
      HttpDelete,
      BaseUrl(cred) + "/sobjects/" + ctx.table + "/" + ctx.deleteKey.value,
      map["Authorization" := "OAuth " + cred.accessToken],
      None))
  {
  }
}

=== FILE: shaping.dfy ===
/**
 * The `_mkmodels` generator of SalesforceQuerySet.iterator: each decoded
 * record becomes the dictionary Django's python deserializer expects.
 */
module Shaping {
  import opened Wrappers
  import opened Exceptions
  import opened Json
  import opened Literals

  /** `dict(model=..., pk=..., fields=...)`. */
  datatype Shaped = Shaped(model: string, pk: Json, fields: map<string, Json>)

  /**
   * `'%s' % value` for a decoded JSON value: strings verbatim, scalars as
   * Python 2 prints them; objects and arrays go through `render`, Python's
   * own str(), whose key order is not modelled.
   */
  function Text(value: Json, render: Json -> string): string {
    match value
    case JStr(s) => s
    case JNum(n) => IntText(n)
    case JBool(b) => if b then "True" else "False"
    case JNull => "None"
    case _ => render(value)
  }

  /**
   * One record: pop `attributes`, name the model after its `type`, pop
   * `Id` as the primary key, and keep the remaining fields. Keyword
   * arguments are evaluated in order, so a missing `type` is reported
   * before a missing `Id`.
   */
  function ShapeRecord(record: Record, render: Json -> string): (r: Result<Shaped, Error>)
    ensures r.Ok? <==>
      "attributes" in record && record["attributes"].JObject? &&
      "type" in record["attributes"].fields && "Id" in record
    ensures r.Ok? ==>
      && r.value.model == "salesforce." + Text(record["attributes"].fields["type"], render)
      && r.value.pk == record["Id"]
      && r.value.fields.Keys == record.Keys - {"attributes", "Id"}
      && forall k | k in r.value.fields :: r.value.fields[k] == record[k]
    ensures "attributes" !in record ==> r == Err(KeyError("attributes"))
    ensures "attributes" in record && !record["attributes"].JObject? ==>
      r == Err(TypeError("attributes is not a mapping"))
    ensures ("attributes" in record && record["attributes"].JObject? &&
             "type" !in record["attributes"].fields) ==> r == Err(KeyError("type"))
    ensures ("attributes" in record && record["attributes"].JObject? &&
             "type" in record["attributes"].fields && "Id" !in record) ==> r == Err(KeyError("Id"))
  {
    if "attributes" !in record then Err(KeyError("attributes"))
    else
      var attributes := record["attributes"];
      var rest := record - {"attributes"};
      if !attributes.JObject? then Err(TypeError("attributes is not a mapping"))
      else if "type" !in attributes.fields then Err(KeyError("type"))
      else if "Id" !in rest then Err(KeyError("Id"))
      else Ok(Shaped("salesforce." + Text(attributes.fields["type"], render), rest["Id"], rest - {"Id"}))
  }

  /**
   * The generator, as its consumer sees it: the shaped records in order,
   * up to the first record that raises, and that exception.
   */
  function ShapeAll(records: seq<Record>, render: Json -> string): (r: (seq<Shaped>, Option<Error>))
    ensures |r.0| <= |records|
    ensures r.1.None? ==> |r.0| == |records|
    ensures r.1.Some? ==> |r.0| < |records|
  {
    if records == [] then ([], None)
    else
      match ShapeRecord(records[0], render)
      case Err(e) => ([], Some(e))
      case Ok(head) =>
        var tail := ShapeAll(records[1..], render);
        ([head] + tail.0, tail.1)
  }

  /**
   * Each record yielded is its own record shaped, in order, and the
   * generator stops at the first record whose shaping raises, with that error.
   */
  lemma {:induction false} ShapeAllInOrder(records: seq<Record>, render: Json -> string)
    ensures var r := ShapeAll(records, render);
      && (forall i | 0 <= i < |r.0| :: ShapeRecord(records[i], render) == Ok(r.0[i]))
      && (r.1.Some? ==> ShapeRecord(records[|r.0|], render) == Err(r.1.value))
  {
    if records != [] && ShapeRecord(records[0], render).Ok? {
      var head := ShapeRecord(records[0], render);
      var rest := records[1..];
      ShapeAllInOrder(rest, render);
      var tail := ShapeAll(rest, render);
      var r := ShapeAll(records, render);
      assert r.0 == [head.value] + tail.0 && r.1 == tail.1;
      forall i | 0 <= i < |r.0|
        ensures ShapeRecord(records[i], render) == Ok(r.0[i])
      {
        if i > 0 {
          assert records[i] == rest[i - 1] && r.0[i] == tail.0[i - 1];
        }
      }
      assert r.1.Some? ==> rest[|tail.0|] == records[|r.0|];
    }
  }

  /** Records that all carry a type and an Id are all shaped, one for one. */
  lemma {:induction false} ShapeAllComplete(records: seq<Record>, render: Json -> string)
    requires forall i | 0 <= i < |records| :: ShapeRecord(records[i], render).Ok?
    ensures ShapeAll(records, render).1.None?
  {
    if records != [] {
      assert forall i | 0 <= i < |records| - 1 :: records[1..][i] == records[i + 1];
      ShapeAllComplete(records[1..], render);
    }
  }
}

=== FILE: urlencoding.dfy ===
/**
 * `urllib.urlencode(dict(q=...))` of Python 2: the one query-string
 * parameter a SELECT request carries. The rendered query is taken to be a
 * Python 2 byte string whose characters are its bytes, so only a character
 * above 255 makes `str()` fail; for a unicode query `str()` already fails
 * from character 128, which this model does not capture.
 */
module UrlEncoding {
  import opened Wrappers
  import opened Exceptions

  /** The characters quote() never escapes: letters, digits and `_.-`. */
  predicate AlwaysSafe(c: char) {
    ('A' <= c <= 'Z') || ('a' <= c <= 'z') || ('0' <= c <= '9') || c == '_' || c == '.' || c == '-'
  }

  function HexDigit(n: nat): char
    requires n < 16
  {
    "0123456789ABCDEF"[n]
  }

  predicate IsHex(c: char) {
    ('0' <= c <= '9') || ('A' <= c <= 'F') || ('a' <= c <= 'f')
  }

  function HexValue(c: char): nat
    requires IsHex(c)
  {
    if '0' <= c <= '9' then c as int - '0' as int
    else if 'A' <= c <= 'F' then c as int - 'A' as int + 10
    else c as int - 'a' as int + 10
  }

  /** The escape of one byte under quote_plus: itself, `+` for a space, or `%XX`. */
  function QuoteChar(c: char): string
    requires c < 256 as char
  {
    if c == ' ' then "+"
    else if AlwaysSafe(c) then [c]
    else "%" + [HexDigit(c as int / 16), HexDigit(c as int % 16)]
  }

  /** quote_plus(str(s)) with the default empty `safe` set. */
  function QuotePlus(s: string): (r: Result<string, Error>)
    ensures r.Ok? <==> forall k | 0 <= k < |s| :: s[k] < 256 as char
    ensures r.Err? ==> r.error == UnicodeEncodeError
  {
    if s == [] then Ok([])
    else if s[0] >= 256 as char then Err(UnicodeEncodeError)
    else
      match QuotePlus(s[1..])
      case Err(e) => Err(e)
      case Ok(t) => Ok(QuoteChar(s[0]) + t)
  }

  /** unquote_plus: `+` is a space, `%XX` with two hex digits is that byte, anything else stands for itself. */
  function UnquotePlus(t: string): string
    decreases |t|
  {
    if t == [] then []
    else if t[0] == '%' && |t| >= 3 && IsHex(t[1]) && IsHex(t[2]) then
      [(HexValue(t[1]) * 16 + HexValue(t[2])) as char] + UnquotePlus(t[3..])
    else if t[0] == '+' then " " + UnquotePlus(t[1..])
    else [t[0]] + UnquotePlus(t[1..])
  }

  /** What an encoded query value may contain: no space, `&`, `=`, `#` or `?` survives. */
  predicate IsEncoded(t: string) {
    forall k | 0 <= k < |t| :: AlwaysSafe(t[k]) || t[k] == '+' || t[k] == '%'
  }

  /** Each hex digit written by the encoder reads back as its value. */
  lemma HexDigitReadsBack(n: nat)
    requires n < 16
    ensures IsHex(HexDigit(n)) && AlwaysSafe(HexDigit(n)) && HexValue(HexDigit(n)) == n
  {
  }

  /** Decoding undoes the escape of one byte, whatever follows it. */
  lemma UnquoteQuoteChar(c: char, rest: string)
    requires c < 256 as char
    ensures UnquotePlus(QuoteChar(c) + rest) == [c] + UnquotePlus(rest)
    ensures IsEncoded(QuoteChar(c))
  {
    var t := QuoteChar(c) + rest;
    if c == ' ' {
      assert t[1..] == rest;
    } else if AlwaysSafe(c) {
      assert t[1..] == rest;
    } else {
      var hi, lo := c as int / 16, c as int % 16;
      HexDigitReadsBack(hi);
      HexDigitReadsBack(lo);
      assert QuoteChar(c) == ['%', HexDigit(hi), HexDigit(lo)];
      assert t[0] == '%' && t[1] == HexDigit(hi) && t[2] == HexDigit(lo) && t[3..] == rest;
      assert (hi * 16 + lo) as char == c;
    }
  }

  lemma {:induction false} QuotePlusRoundTrip(s: string)
    requires QuotePlus(s).Ok?
    ensures UnquotePlus(QuotePlus(s).value) == s
    ensures IsEncoded(QuotePlus(s).value)
  {
    if s != [] {
      QuotePlusRoundTrip(s[1..]);
      var rest := QuotePlus(s[1..]).value;
      UnquoteQuoteChar(s[0], rest);
      assert QuotePlus(s).value == QuoteChar(s[0]) + rest;
      assert s == [s[0]] + s[1..];
    }
  }

  /** urlencode(dict(q=v)): the parameter name, `=`, and the escaped value. */
  function EncodeQuery(v: string): (r: Result<string, Error>)
    ensures r.Ok? ==> |r.value| >= 2 && r.value[..2] == "q=" && UnquotePlus(r.value[2..]) == v
    ensures r.Ok? ==> IsEncoded(r.value[2..])
    ensures r.Err? ==> r.error == UnicodeEncodeError
  {
    match QuotePlus(v)
    case Err(e) => Err(e)
    case Ok(t) =>
      QuotePlusRoundTrip(v);
      assert ("q=" + t)[2..] == t;
      Ok("q=" + t)
  }
}

=== FILE: wrappers.dfy ===
/** Failure-compatible wrappers shared by the rest of the model. */
module Wrappers {

  /** A value that may be absent (Python's `None`). */
  datatype Option<+T> = None | Some(value: T)

  /** A value, or the exception that was raised instead of producing it. */
  datatype Result<+T, +E> = Ok(value: T) | Err(error: E)

  /** The completion of a call that returns nothing: normal return, or an exception. */
  datatype Outcome<+E> = Pass | Fail(error: E)
}
